=== FILE: README.md ===
# Photo portfolio: gallery, admin and form logic in Dafny

This project models the data-shaping logic of a small photo portfolio
website built on a hosted document database, blob storage and an auth
service. The website has a public gallery with a category filter, a
categories page, a sitemap, and an admin area. The admin area is gated on
one email address and lets that user upload, edit and delete photos.

Every backend call is modelled by its result, passed in as a parameter:
a snapshot's documents, a subscription error, whether a delete or write
succeeded, or a download URL. Date parsing, date formatting and HTML
stripping are passed in as functions. What remains is pure Dafny:

- `Types`: the `Photo` record. `id`, `src`, `name` and `category` are
  required. `category` is a plain string. Every other field is optional.
  The module also holds the six-entry taxonomy and the "All Categories"
  sentinel.
- `CategoryIcons`, `CategoryFilter`: the icon for each category and the
  row of filter buttons.
- `Gallery`: the order-preserving category filter shared by all gallery
  views, and the feed a subscription keeps. A snapshot replaces the list;
  an error keeps it.
- `HomePage`, `CategoriesPage`, `AdminPage`, `AdminLayout`: each page's
  state transitions and render decision. `Session` holds the auth state
  and the admin email.
- `PhotoEditForm`: pre-filling, validation, the update payload, tag
  parsing, the posting-date fallback and the locally merged photo.
- `PhotoUploadForm`: file selection, validation, the storage path, the
  record written and how the form settles.
- `Sitemap`: static routes, then one route per photo.
- `Strings`, `Dates`, `Wrappers`: JavaScript's `trim`, `split`, `join`,
  `includes` and decimal rendering; `Date` values and the date-shape
  dispatch; `Option`.

Firestore `null` and an absent field are both `None`, because the code
reads them alike (`x || ""`). Instants are integer milliseconds. Sitemap
priorities are integer tenths.

## Model

| member | source | states |
|---|---|---|
| `Types.TaxonomyShape` | src/types/index.ts:13-20 | The taxonomy has exactly six entries, from "Birthday" to "College Friends", and they are pairwise distinct. |
| `Types.SentinelIsNotACategory` | src/types/index.ts:22-24 | "All Categories" is not a taxonomy entry, so no `Category` value equals it. |
| `CategoryIcons.CategoryIcon` | src/components/icons/category-icon.tsx:11-27 | Each of the six names maps to its own icon (Cake, Plane, Briefcase, BookOpen, Users, GraduationCap), and only that name does. The mapping is total. |
| `CategoryIcons.IconsIdentifyCategories` | src/components/icons/category-icon.tsx:4-26 | An input gets a non-default icon iff it is a taxonomy member. The category icons are pairwise distinct. The sentinel and `undefined` get the default image icon. |
| `CategoryFilter.DisplayCategories` | src/components/category-filter.tsx:14 | Seven entries: the sentinel, then the taxonomy in its order. All entries are distinct. |
| `CategoryFilter.FilterButtons` | src/components/category-filter.tsx:22-32 | One button per display entry, in order. A button is pressed iff its text equals the selection. Each button shows its entry's icon. |
| `CategoryFilter.ExactlyOnePressed` | src/components/category-filter.tsx:25-30 | For any selection, exactly one button is pressed. |
| `CategoryFilter.OnClick` | src/components/category-filter.tsx:26 | Clicking a button hands exactly that button's entry to the selection callback. |
| `Gallery.PhotosInCategory` | src/app/page.tsx:81 | The equality filter returns a subsequence of the input. It contains exactly the photos whose category equals the selection, and it is no longer than the input. |
| `Gallery.FilterPhotos` | src/app/page.tsx:78-81 | With the sentinel selected, the result is the whole list in the same order. Otherwise it is the category filter. Either way it is a subsequence of the list. |
| `Gallery.FilterIsLongestMatchingSubsequence` | src/app/page.tsx:81 | Every order-preserving selection of matching photos is at most as long as the filter's result. One of equal length is the result itself, so the filter keeps every match in original order. |
| `Gallery.FilterIdempotent` | src/app/page.tsx:78-81 | Filtering twice with the same selection gives the same result as filtering once. |
| `Gallery.ApplyFeedEvent` | src/app/page.tsx:36-51 | A snapshot replaces the list with the delivered documents in their order. An error leaves the list unchanged. Both clear loading. |
| `Gallery.FeedShowsLastSnapshot` | src/app/page.tsx:36-51 | After any run of events, the list is the last snapshot delivered, or the initial list if there was none. Loading is over once any event has arrived. |
| `HomePage.HomeStep` | src/app/page.tsx:36-70 | A main-feed event applies the feed transition to the main feed and changes nothing else. A highlights event does the same for the highlights feed. A filter click changes only the selection. |
| `HomePage.HighlightsIsolated` | src/app/page.tsx:53-70 | No sequence of main-feed events or filter clicks ever changes the highlights feed. |
| `HomePage.MainIsolated` | src/app/page.tsx:36-51 | No sequence of highlights events or filter clicks ever changes the main feed. |
| `HomePage.HighlightsLoadingUntilDelivered` | src/app/page.tsx:24-25 | From the first render, the highlights stay loading and empty until their own subscription delivers, whatever else happens. |
| `HomePage.GalleryLoadingUntilDelivered` | src/app/page.tsx:21-23 | From the first render, the main gallery shows its loading message until the main subscription delivers, whatever category is picked meanwhile. |
| `HomePage.HomeGallery` | src/app/page.tsx:197-203 | The gallery shows a loading message iff the main feed is loading. Otherwise it shows the filtered list: the whole list for the sentinel, or exactly the photos of the selected category, in feed order. |
| `HomePage.HomeHighlights` | src/app/page.tsx:177-185 | The highlights section is loading iff its feed is loading. It is empty iff the loaded list is empty. Otherwise it shows the highlights list unfiltered. |
| `CategoriesPage.InitialCategories` | src/app/categories/page.tsx:25-27 | The page starts with the sentinel selected, an empty list, and loading true. |
| `CategoriesPage.CategoriesStep` | src/app/categories/page.tsx:35-50 | A snapshot replaces the list. An error keeps it. Both clear loading and keep the selection. A filter click changes only the selection. |
| `CategoriesPage.Heading` | src/app/categories/page.tsx:172-175 | The count is the number of filtered photos. The label reads "All Photos" iff the sentinel is selected, and otherwise names the selected category. |
| `CategoriesPage.HeadingText` | src/app/categories/page.tsx:172-175 | The rendered heading is the caption, " (", the count in decimal digits and ")". The digits have no leading zero and read back as the count, so by `Strings.CanonicalDecimalUnique` they are exactly the decimal rendering of the count. |
| `CategoriesPage.CategoriesGrid` | src/app/categories/page.tsx:55-58 | The grid is the whole list for the sentinel, or exactly the selected category's photos in order. Its size is the heading's count. |
| `AdminLayout.AdminLayoutView` | src/app/admin/layout.tsx:19-58 | The four outcomes are exclusive and exhaustive. Loading shows iff auth is loading. The layout redirects to login iff it is not loading and there is no user. It denies access iff the user's email is not the admin's. It renders the children iff the user is the admin. |
| `AdminPage.OnUserChange` | src/app/admin/page.tsx:37-62 | A subscription is live iff the user is the admin, and the list then reloads. A signed-in non-admin gets loading cleared. No user leaves loading as it was. The list and the selection never change here. |
| `AdminPage.OnFeedEvent` | src/app/admin/page.tsx:43-58 | Feed events change the page only while subscribed, and then as the shared feed transition does. The category selection is kept. |
| `AdminPage.NonAdminNeverSeesPhotos` | src/app/admin/page.tsx:37-62 | If the admin never signs in, no subscription exists and the dashboard list stays empty, whatever else happens. |
| `AdminPage.FreshPageWithoutAdminStaysEmpty` | src/app/admin/page.tsx:23-62 | From the first render (empty list, loading, all categories), a session in which the admin never signs in never subscribes and keeps the list empty. |
| `AdminPage.FindPhoto` | src/app/admin/page.tsx:71 | The result is the first photo with the given id, or none iff no photo has that id. |
| `AdminPage.HandlePhotoDelete` | src/app/admin/page.tsx:66-98 | A non-admin gets "Unauthorized" and no calls. An id not in the list gets "not found" and no calls. Otherwise the document delete is always made, and made first. The blob delete is made exactly when the document delete succeeded and `src` contains the storage host. "Deleted" is reported iff no step failed. Any failure gives the single error outcome. |
| `AdminPage.DeleteAgainIsNotFound` | src/app/admin/page.tsx:71-75 | Deleting an id that is no longer listed reports "not found" and makes no backend call. |
| `AdminPage.ForeignUrlKeepsBlob` | src/app/admin/page.tsx:80-84 | For a photo whose URL lacks the storage host, the only call ever made is the document delete. |
| `AdminPage.AdminPageView` | src/app/admin/page.tsx:122-143 | The order is loading, then no user, then "Access Denied" for a non-admin. Only the admin gets the dashboard, and it shows the filtered subsequence of the feed. The gallery is exactly the filtered feed, repeats included. |
| `Strings.Trim` | src/components/photo-edit-form.tsx:151 | The result has nothing left to trim. It is the input with only a whitespace prefix and a whitespace suffix removed. It is empty iff the input is all whitespace. Already-trimmed text is unchanged. |
| `Strings.TrimAfterWhitespace` | src/components/photo-edit-form.tsx:204 | Trimming whitespace followed by a trimmed, non-empty text gives that text. |
| `Strings.TrimBeforeWhitespace` | src/components/photo-edit-form.tsx:204 | Trimming a trimmed, non-empty text followed by whitespace gives that text. |
| `Strings.Split` | src/components/photo-edit-form.tsx:204 | `split` on one character: at least one piece, and no piece holds the separator. Text without the separator is a single piece. |
| `Strings.SplitAround` | src/components/photo-edit-form.tsx:204 | The pieces of `a + sep + b` are the pieces of `a` followed by those of `b`. |
| `Strings.Join` | src/components/photo-edit-form.tsx:136 | `join`: no parts give the empty string. Otherwise the result starts with the first part and ends with the last. |
| `Strings.SplitJoin` | src/components/photo-edit-form.tsx:136-204 | Splitting the join of separator-free parts gives back the parts. |
| `Strings.JoinSplit` | src/components/photo-edit-form.tsx:136-204 | Joining the pieces of a split with the separator gives back the text. |
| `Strings.Includes` | src/app/admin/page.tsx:80 | True iff the substring occurs at some position. |
| `Strings.NatToString` | src/app/categories/page.tsx:173-174 | A template literal's rendering of a non-negative integer: at least one character, all decimal digits, no leading zero. The same rendering gives the clock digits of the upload path. |
| `Strings.NatToStringRoundTrip` | src/app/categories/page.tsx:173-174 | The rendered digits read back as the number. |
| `Strings.CanonicalDecimalUnique` | src/app/categories/page.tsx:173-174 | Any digit string without a leading zero is the rendering of its own value, so the rendering is the only such numeral for a number. |
| `Dates.ResolveDate` | src/components/photo-edit-form.tsx:39-81 | Every branch of the dispatch. A falsy value gives no date. An object with `toDate` gives the time of `toDate()`, or nothing if it is invalid. Otherwise a truthy numeric `seconds` gives `seconds * 1000` when that is in range. Otherwise an own `Date` gives its time if valid, and any other object gives nothing. A non-empty string gives the time of `new Date(s)` if valid. A non-zero number gives itself iff it is in range. |
| `Dates.MakeDate` | src/components/photo-edit-form.tsx:53 | `new Date(ms)` is valid iff `ms` lies within the ECMAScript time range, and then holds `ms` unchanged. |
| `Dates.DispatchPrecedence` | src/components/photo-edit-form.tsx:48-58 | `toDate` is tried before `seconds`, and `seconds` before an own `Date`. A later member never changes the result when an earlier one applies. |
| `Dates.TimestampAgreesWithSeconds` | src/components/photo-edit-form.tsx:48-54 | A whole-second Timestamp and its plain `{seconds}` form give the same instant. The exception is zero seconds, which the plain form treats as absent. |
| `Dates.DateObjectResolves` | src/components/photo-edit-form.tsx:55-58 | A valid `Date` object resolves to its own time. |
| `Dates.FormatForInput` | src/components/photo-edit-form.tsx:39-126 | Both `formatDateForInput` and `formatTimeForInput`: the result renders the resolved instant, or the current instant when the input is absent, unrecognised or invalid. |
| `PhotoEditForm.InitialEditForm` | src/components/photo-edit-form.tsx:130-142 | The title and category come from the photo. Tags are joined with ", ", or empty when there are none. Alt text, caption, location and description show the stored text, or start empty when it is missing. The date and time inputs show the posting instant, formatted by day and by clock time. |
| `PhotoEditForm.CleanTags` | src/components/photo-edit-form.tsx:204 | Every kept tag is non-empty, trimmed and comma-free. No more tags come out than pieces go in. |
| `PhotoEditForm.TrimAll` | src/components/photo-edit-form.tsx:204 | `map(tag => tag.trim())`: one trimmed text per piece, in order. |
| `PhotoEditForm.KeepNonEmpty` | src/components/photo-edit-form.tsx:204 | `filter(tag => tag.length > 0)`: exactly the non-empty entries are kept. |
| `PhotoEditForm.KeepNonEmptyOfOne` | src/components/photo-edit-form.tsx:204 | One entry is kept iff it is non-empty. With `KeepNonEmptyAppend` this fixes the filtered list, order and repeats included. |
| `PhotoEditForm.KeepNonEmptyAppend` | src/components/photo-edit-form.tsx:204 | Filtering a concatenation gives the filtered parts, in order. |
| `PhotoEditForm.CleanTagsIsMapFilter` | src/components/photo-edit-form.tsx:204 | The tags are exactly the source's map-then-filter: each piece trimmed, then the empty ones dropped, in order. |
| `PhotoEditForm.CleanTagsMembers` | src/components/photo-edit-form.tsx:204 | A text is a tag iff it is non-empty and some piece trims to it. |
| `PhotoEditForm.CleanTagsAppend` | src/components/photo-edit-form.tsx:204 | The tags of two runs of pieces are the tags of the first run followed by those of the second. |
| `PhotoEditForm.CleanTagsOfOne` | src/components/photo-edit-form.tsx:204 | One piece gives its trimmed text, or nothing when that is empty. |
| `PhotoEditForm.ParseTags` | src/components/photo-edit-form.tsx:203-207 | The field is `null` iff the text is blank. Otherwise the tags are the comma-separated pieces, trimmed, with the empty ones dropped, in order and with repeats kept. Every tag is non-empty, trimmed and comma-free, and a text is a tag iff some piece trims to it. |
| `PhotoEditForm.TagsAcrossComma` | src/components/photo-edit-form.tsx:204 | The tags of `a + "," + b` are the tags of `a` followed by the tags of `b`. |
| `PhotoEditForm.EmptyPieceDropped` | src/components/photo-edit-form.tsx:203-207 | For any two clean tags, "a,,b" parses to exactly [a, b]: the empty piece is dropped. |
| `PhotoEditForm.SpacesAroundCommaTrimmed` | src/components/photo-edit-form.tsx:203-207 | For any two clean tags and any whitespace around the comma between them, the text parses to exactly [x, y]. |
| `PhotoEditForm.TagsRoundTrip` | src/components/photo-edit-form.tsx:203-207 | Clean tags joined with ", " (the pre-fill at line 136) parse back to the same list. An empty list comes back as `null`. |
| `PhotoEditForm.OptionalText` | src/components/photo-edit-form.tsx:190-201 | A caption or location is `null` iff blank. Otherwise it is the trimmed, non-empty text. |
| `PhotoEditForm.PostingInstant` | src/components/photo-edit-form.tsx:166-178 | The instant parsed from date and time joined by "T" when valid, otherwise the current time. |
| `PhotoEditForm.BuildPayload` | src/components/photo-edit-form.tsx:180-207 | `name` and `altText` are trimmed and non-empty. `category` is the selection, and the description is stripped of HTML. Cleared optional fields are `null`, and the tags are the parsed tag text. The payload type has no `id` or `src` field. |
| `PhotoEditForm.MergeUpdate` | src/components/photo-edit-form.tsx:211-215 | The merged photo keeps `id`, `src` and `createdAt` and takes every payload field. Its posting date resolves to the saved instant, and `updatedAt` is the local now. |
| `PhotoEditForm.HandleEditSubmit` | src/components/photo-edit-form.tsx:147-234 | The submit is rejected with no write iff the trimmed title or alt text is empty. Otherwise the update is attempted, and the merged photo is handed back only if it succeeds. |
| `PhotoEditForm.ResaveIsStable` | src/components/photo-edit-form.tsx:130-215 | Saving, reopening and saving again writes the same name, alt text, category, caption, location and tags. The one exception is that an empty tag list becomes `null`. |
| `PhotoUploadForm.InitialUploadForm` | src/components/photo-upload-form.tsx:30-34 | The form starts with no file or preview, not uploading, progress 0, and the first taxonomy entry selected. |
| `PhotoUploadForm.HandleFileChange` | src/components/photo-upload-form.tsx:37-50 | Choosing no file clears both the file and the preview. Choosing a file keeps it. Nothing else changes. |
| `PhotoUploadForm.PreviewLoaded` | src/components/photo-upload-form.tsx:41-44 | The reader's data URL becomes the preview. The file, category, uploading flag and progress are untouched. |
| `PhotoUploadForm.StoragePath` | src/components/photo-upload-form.tsx:67 | The path is "photos/", then the clock in decimal digits with no leading zero, then "_" and the file name. The digits read back as the clock, so by `Strings.CanonicalDecimalUnique` they are exactly its decimal rendering. |
| `PhotoUploadForm.StoragePathRoundTrip` | src/components/photo-upload-form.tsx:67 | The clock value and the file name can be read back from the path, so equal paths mean the same millisecond and the same name. |
| `PhotoUploadForm.ParsedPathRebuilds` | src/components/photo-upload-form.tsx:67 | Every path that reads back as a clock value and a file name is the path written for them. So the reading accepts only written paths, and no zero-padded clock. |
| `PhotoUploadForm.HandleUploadSubmit` | src/components/photo-upload-form.tsx:52-122 | With no file or no category there is no upload and nothing changes. Otherwise the path is "photos/" + clock + "_" + name. A record is written iff the upload and the add both succeed. It holds exactly the download URL, file name, selection and server timestamp. On success the form resets but keeps its category. A transfer error writes nothing and clears uploading. A synchronous throw gives the unexpected-error notice, and only it does. A failed download URL or record write, as written, leaves the form uploading with no notice. Every failure path keeps the chosen file, preview and category for a retry. The progress is 0 after a synchronous throw, and otherwise the last reported percentage. |
| `PhotoUploadForm.StuckAfterFailedWrite` | src/components/photo-upload-form.tsx:85-111 | As written, for every submitted form that passes validation, a failed download URL or record write after a completed upload leaves the form uploading, with no notification. The file, preview and category are kept. |
| `PhotoUploadForm.HandleUploadSubmitCorrected` | src/components/photo-upload-form.tsx:85-111 | With the completion failures handled, a submit that passed validation never leaves the form uploading. A failed URL or record write is reported. The writes and the path are unchanged. A reported write failure keeps the file, preview and category. |
| `Sitemap.StaticEntry` | src/app/sitemap.ts:11-16 | The URL is the base plus the route. The entry is daily iff the route is '', with priority 1.0 there and 0.8 otherwise. |
| `Sitemap.PhotoEntry` | src/app/sitemap.ts:25-33 | The URL is the base + "/amrit-kumar-chanchal/photo/" + id. The entry is weekly with priority 0.7. Its last-modified time is `createdAt`, or now when that is absent. |
| `Sitemap.BuildSitemap` | src/app/sitemap.ts:9-39 | The three static routes come first, then one entry per document in query order, so the length is 3 + n. A failed fetch gives exactly the static routes. |
| `Sitemap.StaticEntriesShape` | src/app/sitemap.ts:11-16 | The static entries are '', '/admin' and '/contact', in that order, with their frequencies and priorities. |
| `Sitemap.PhotoUrlNamesDocument` | src/app/sitemap.ts:28 | A photo entry's URL is the fixed prefix followed by the document id. |
| `Sitemap.PhotoUrlsEqualIff` | src/app/sitemap.ts:28 | Two photo URLs are equal iff their ids are. |
| `Sitemap.StaticUrlIsNoPhotoUrl` | src/app/sitemap.ts:11-28 | No static URL equals any photo URL. |
| `Sitemap.UrlsDistinctIffIdsDistinct` | src/app/sitemap.ts:9-39 | The sitemap's URLs are pairwise distinct iff the documents' ids are. |

## Findings

| source | as written | input that shows it | evidently intended | confidence | as-written member | corrected member |
|---|---|---|---|---|---|---|
| src/components/photo-upload-form.tsx:85-111 | The completion callback awaits `getDownloadURL` and `addDoc` outside any `try`. A rejection there is unhandled, so `setIsUploading(false)` never runs and no notice is shown. | An upload that completes, followed by an `addDoc` that rejects (for example permission denied) | Clear the uploading flag and report the failed record write, as the other failure paths do | medium (not executed) | `PhotoUploadForm.StuckAfterFailedWrite` | `PhotoUploadForm.HandleUploadSubmitCorrected` |

## Left out

- Backend SDK behaviour is not modelled: queries, ordering, `limit`, subscription lifetime and unsubscribe, `updateDoc`, `addDoc`, `deleteDoc`, storage upload, `getDownloadURL`, `deleteObject`, `getCountFromServer` and app initialisation. Their results are inputs to the model.
- The auth provider (src/contexts/auth-context.tsx) is delegated to the auth service. It is modelled only as a loading flag and an optional user with an optional email.
- React effect timing, async interleaving and re-renders are not modelled. Each callback is one state transition.
- The admin connection test (src/app/admin/page.tsx:100-120) is pure backend plumbing, so it is not modelled.
- Sign-out is not modelled, since it only calls the auth service.
- Toast texts are not modelled. The delete, edit and upload handlers' notices appear as outcome constructors.
- `Gallery.ApplyFeedEvent`: a subscription error keeps the list and clears loading, but the error notice each page shows then (src/app/page.tsx:45-49 and 64-68, src/app/categories/page.tsx:44-48, src/app/admin/page.tsx:52-56) is not modelled.
- The edit form's `isUpdating` flag is not a field. It is set when a validated submit starts and cleared in a `finally`, so it is false after every submit. Only its in-flight value, which disables the button while the update runs, is lost, because the model treats a submit as one step.
- The upload form's `onPhotoAdd` callback is not modelled, because no caller in these files passes it.
- The progress percentage is left out because it is floating-point division. The model carries the last reported value as an input.
- The preview's `FileReader` is left out. Its result arrives as `PreviewLoaded`.
- Dates are not computed. `new Date(text)` is the `parse` function, `toISOString().split('T')[0]` is `dayOf`, `toTimeString().slice(0, 5)` is `clockOf`, and `stripHtml` (DOM-based) is a function parameter. The sitemap keeps `lastModified` as an instant, without its ISO text.
- `Dates.ResolveDate`: numbers are integral, so a fractional or NaN `seconds` or number is not modelled. A `toDate()` that throws is not modelled either.
- `Dates.TimestampAgreesWithSeconds`: stated for whole-second Timestamps only. `toDate()` keeps a Timestamp's nanoseconds, which the `{seconds}` path drops.
- `{ id: doc.id, ...doc.data() }` builds each snapshot document. The model takes the documents as `Photo` values and does not cover a stored `id` field overriding the document id.
- The photo detail modal, the site settings form, and the purely presentational pages and components are outside the modelled core. So are `robots.ts` and the animation variants.
- The category taxonomy is not enforced on photos: the code stores the category as a plain string, and so does the model.
- The code has no multi-file batches, no slug file names, no separate partial-success delete outcome and no in-flight delete guard, so the model has none either.

=== FILE: admin_layout.dfy ===
/** The admin layout's gate in front of every admin page. */
module AdminLayout {
  import opened Session

  datatype LayoutView = LoadingAdminArea | RedirectingToLogin | AccessDenied | AdminShell

  /** Loading first, then no user, then a user who is not the admin; only the
      admin gets the shell that renders the children. */
  function AdminLayoutView(auth: AuthState): (v: LayoutView)
    ensures v.LoadingAdminArea? <==> auth.loading
    ensures v.RedirectingToLogin? <==> !auth.loading && auth.user.None?
    ensures v.AccessDenied? <==> !auth.loading && auth.user.Some? && !IsAdmin(auth.user)
    ensures v.AdminShell? <==> !auth.loading && IsAdmin(auth.user)
    ensures v.RedirectingToLogin? <==> ShouldRedirect(auth)
  {
    if auth.loading then LoadingAdminArea
    else if auth.user.None? then RedirectingToLogin
    else if !IsAdmin(auth.user) then AccessDenied
    else AdminShell
  }
}

=== FILE: admin_page.dfy ===
/** The admin dashboard: a feed subscribed only for the admin, the delete
    handler, and the page's own access gate. */
module AdminPage {
  import opened Wrappers
  import opened Types
  import opened Gallery
  import opened Session
  import opened Strings

  /** The dashboard's feed, whether its subscription is live, and the filter. */
  datatype AdminState = AdminState(feed: Feed, subscribed: bool, selected: Selection)

  const InitialAdmin: AdminState := AdminState(InitialFeed, false, AllCategoriesOption)

  /** The subscription effect, re-run whenever the user changes: the admin gets
      a fresh subscription and a loading list; anyone else has the previous
      subscription torn down, and a signed-in non-admin also stops the loading
      indicator. The list itself is never cleared here. */
  function OnUserChange(s: AdminState, user: Option<User>): (t: AdminState)
    ensures t.subscribed <==> IsAdmin(user)
    ensures t.feed.photos == s.feed.photos && t.selected == s.selected
    ensures IsAdmin(user) ==> t.feed.loading
    ensures user.Some? && !IsAdmin(user) ==> !t.feed.loading
    ensures user.None? ==> t.feed.loading == s.feed.loading
  {
    if IsAdmin(user) then AdminState(Feed(s.feed.photos, true), true, s.selected)
    else if user.Some? then AdminState(Feed(s.feed.photos, false), false, s.selected)
    else s.(subscribed := false)
  }

  /** A subscription callback only reaches the page while subscribed. */
  function OnFeedEvent(s: AdminState, e: FeedEvent): (t: AdminState)
    ensures s.subscribed ==> t.feed == ApplyFeedEvent(s.feed, e) && t.subscribed && t.selected == s.selected
    ensures !s.subscribed ==> t == s
  {
    if s.subscribed then s.(feed := ApplyFeedEvent(s.feed, e)) else s
  }

  datatype AdminEvent = UserChanged(user: Option<User>) | FeedEventArrived(event: FeedEvent) | SelectCategory(category: Selection)

  function AdminStep(s: AdminState, e: AdminEvent): AdminState
  {
    match e
    case UserChanged(u) => OnUserChange(s, u)
    case FeedEventArrived(ev) => OnFeedEvent(s, ev)
    case SelectCategory(c) => s.(selected := c)
  }

  function AdminRun(s: AdminState, events: seq<AdminEvent>): AdminState
    decreases |events|
  {
    if |events| == 0 then s else AdminRun(AdminStep(s, events[0]), events[1..])
  }

  /** As long as the admin never signs in, no subscription exists and the
      dashboard's list stays empty, whatever the backend would deliver. */
  lemma {:induction false} NonAdminNeverSeesPhotos(s: AdminState, events: seq<AdminEvent>)
    requires !s.subscribed && s.feed.photos == []
    requires forall i :: 0 <= i < |events| ==> !(events[i].UserChanged? && IsAdmin(events[i].user))
    ensures !AdminRun(s, events).subscribed
    ensures AdminRun(s, events).feed.photos == []
    decreases |events|
  {
    if |events| > 0 {
      NonAdminNeverSeesPhotos(AdminStep(s, events[0]), events[1..]);
    }
  }

  /** From the page's first render, a session in which the admin never signs
      in keeps the dashboard list empty and never subscribes. */
  lemma FreshPageWithoutAdminStaysEmpty(events: seq<AdminEvent>)
    requires forall i :: 0 <= i < |events| ==> !(events[i].UserChanged? && IsAdmin(events[i].user))
    ensures !AdminRun(InitialAdmin, events).subscribed
    ensures AdminRun(InitialAdmin, events).feed.photos == []
  {
    NonAdminNeverSeesPhotos(InitialAdmin, events);
  }

  /** Host marking a download URL of the project's storage bucket. */
  const StorageHost: string := "firebasestorage.googleapis.com"

  /** The backend calls the delete handler makes, in order. */
  datatype BackendCall = DeleteDocument(id: string) | DeleteBlob(url: string)

  /** The notification the delete handler ends with. */
  datatype DeleteOutcome = Unauthorized | PhotoNotFound | PhotoDeleted(name: string) | ErrorDeletingPhoto

  datatype DeleteRun = DeleteRun(outcome: DeleteOutcome, calls: seq<BackendCall>)

  /** `photos.find(p => p.id === id)`: the first photo with that id. */
  function FindPhoto(photos: seq<Photo>, id: string): (r: Option<Photo>)
    ensures r.None? <==> forall i :: 0 <= i < |photos| ==> photos[i].id != id
    ensures r.Some? ==> exists i :: 0 <= i < |photos| && photos[i] == r.value
                                  && (forall j :: 0 <= j < i ==> photos[j].id != id)
    ensures r.Some? ==> r.value.id == id
  {
    if |photos| == 0 then None
    else if photos[0].id == id then Some(photos[0])
    else
      var r := FindPhoto(photos[1..], id);
      assert r.Some? ==> exists i :: 0 <= i < |photos| && photos[i] == r.value
                                  && (forall j :: 0 <= j < i ==> photos[j].id != id) by {
        if r.Some? {
          var i :| 0 <= i < |photos[1..]| && photos[1..][i] == r.value
                   && (forall j :: 0 <= j < i ==> photos[1..][j].id != id);
          assert photos[i + 1] == r.value;
          assert forall j :: 1 <= j < i + 1 ==> photos[j].id == photos[1..][j - 1].id;
        }
      }
      r
  }

  /** Whether the handler tries to delete the blob behind `src`. */
  predicate InBucket(src: string) {
    src != "" && Includes(src, StorageHost)
  }

  /** `handlePhotoDelete`. `docDeleted` and `blobDeleted` are what the two
      backend calls report, should they be made. */
  function HandlePhotoDelete(user: Option<User>, photos: seq<Photo>, id: string,
                             docDeleted: bool, blobDeleted: bool): (r: DeleteRun)
    ensures !IsAdmin(user) ==> r == DeleteRun(Unauthorized, [])
    ensures IsAdmin(user) && FindPhoto(photos, id).None? ==> r == DeleteRun(PhotoNotFound, [])
    ensures |r.calls| > 0 ==> r.calls[0] == DeleteDocument(id)
    ensures IsAdmin(user) && FindPhoto(photos, id).Some? ==> |r.calls| >= 1
    ensures |r.calls| <= 2
    ensures |r.calls| == 2 <==>
              IsAdmin(user) && FindPhoto(photos, id).Some? && docDeleted
              && InBucket(FindPhoto(photos, id).value.src)
    ensures |r.calls| == 2 ==> docDeleted && r.calls[1] == DeleteBlob(FindPhoto(photos, id).value.src)
                               && InBucket(FindPhoto(photos, id).value.src)
    ensures r.outcome.PhotoDeleted? <==>
              IsAdmin(user) && FindPhoto(photos, id).Some? && docDeleted
              && (InBucket(FindPhoto(photos, id).value.src) ==> blobDeleted)
    ensures r.outcome.PhotoDeleted? ==> r.outcome.name == FindPhoto(photos, id).value.name
    ensures r.outcome.ErrorDeletingPhoto? <==>
              IsAdmin(user) && FindPhoto(photos, id).Some?
              && (!docDeleted || (InBucket(FindPhoto(photos, id).value.src) && !blobDeleted))
  {
    if !IsAdmin(user) then DeleteRun(Unauthorized, [])
    else
      match FindPhoto(photos, id)
      case None => DeleteRun(PhotoNotFound, [])
      case Some(p) =>
        if !docDeleted then DeleteRun(ErrorDeletingPhoto, [DeleteDocument(id)])
        else if !InBucket(p.src) then DeleteRun(PhotoDeleted(p.name), [DeleteDocument(id)])
        else if !blobDeleted then DeleteRun(ErrorDeletingPhoto, [DeleteDocument(id), DeleteBlob(p.src)])
        else DeleteRun(PhotoDeleted(p.name), [DeleteDocument(id), DeleteBlob(p.src)])
  }

  /** Deleting again once the snapshot no longer lists the photo is harmless:
      the handler reports "not found" and calls nothing. */
  lemma DeleteAgainIsNotFound(user: Option<User>, photos: seq<Photo>, id: string, d: bool, b: bool)
    requires IsAdmin(user)
    requires forall i :: 0 <= i < |photos| ==> photos[i].id != id
    ensures HandlePhotoDelete(user, photos, id, d, b) == DeleteRun(PhotoNotFound, [])
  {
  }

  /** A photo hosted elsewhere only ever has its document deleted. */
  lemma ForeignUrlKeepsBlob(user: Option<User>, photos: seq<Photo>, id: string, d: bool, b: bool)
    requires FindPhoto(photos, id).Some? && !Includes(FindPhoto(photos, id).value.src, StorageHost)
    ensures forall c :: c in HandlePhotoDelete(user, photos, id, d, b).calls ==> c.DeleteDocument?
  {
  }

  datatype AdminView =
    | VerifyingAccess
    | RedirectingToLogin
    | AccessDenied
    | Dashboard(loadingPhotos: bool, gallery: seq<Photo>)

  /** The page's own gate, in the layout's order, then the filtered gallery. */
  function AdminPageView(auth: AuthState, s: AdminState): (v: AdminView)
    ensures v.VerifyingAccess? <==> auth.loading
    ensures v.RedirectingToLogin? <==> ShouldRedirect(auth)
    ensures v.AccessDenied? <==> !auth.loading && auth.user.Some? && !IsAdmin(auth.user)
    ensures v.Dashboard? <==> !auth.loading && IsAdmin(auth.user)
    ensures v.Dashboard? ==> v.loadingPhotos == s.feed.loading
    ensures v.Dashboard? ==> IsSubsequence(v.gallery, s.feed.photos)
    ensures v.Dashboard? && s.selected != AllCategoriesOption ==>
              forall p :: p in v.gallery <==> p in s.feed.photos && p.category == s.selected
    ensures v.Dashboard? && s.selected == AllCategoriesOption ==> v.gallery == s.feed.photos
    ensures v.Dashboard? ==> v.gallery == FilterPhotos(s.feed.photos, s.selected)
  {
    if auth.loading then VerifyingAccess
    else if auth.user.None? then RedirectingToLogin
    else if !IsAdmin(auth.user) then AccessDenied
    else Dashboard(s.feed.loading, FilterPhotos(s.feed.photos, s.selected))
  }
}

=== FILE: categories_page.dfy ===
/** The categories page: one feed, the category filter and a results heading. */
module CategoriesPage {
  import opened Types
  import opened Gallery
  import opened Strings

  datatype CategoriesState = CategoriesState(feed: Feed, selected: Selection)

  datatype CategoriesEvent = FeedEventArrived(event: FeedEvent) | SelectCategory(category: Selection)

  /** The page before its subscription delivers anything. */
  function InitialCategories(): (s: CategoriesState)
    ensures s.selected == AllCategoriesOption && s.feed.photos == [] && s.feed.loading
  {
    CategoriesState(InitialFeed, AllCategoriesOption)
  }

  /** Feed events go to the feed, filter clicks to the selection. */
  function CategoriesStep(s: CategoriesState, e: CategoriesEvent): (t: CategoriesState)
    ensures e.FeedEventArrived? && e.event.Snapshot? ==> t.feed.photos == e.event.docs
    ensures e.FeedEventArrived? && e.event.SubscriptionError? ==> t.feed.photos == s.feed.photos
    ensures e.FeedEventArrived? ==> !t.feed.loading && t.selected == s.selected
    ensures e.SelectCategory? ==> t.feed == s.feed && t.selected == e.category
  {
    match e
    case FeedEventArrived(ev) => s.(feed := ApplyFeedEvent(s.feed, ev))
    case SelectCategory(c) => s.(selected := c)
  }

  /** The results heading: a label and the number of photos shown. */
  datatype ResultsHeading = ResultsHeading(caption: string, count: nat)

  /** "All Photos (n)" without a filter, "<category> (n)" with one, where n
      counts the photos the grid shows. */
  function Heading(s: CategoriesState): (h: ResultsHeading)
    ensures h.count == |FilterPhotos(s.feed.photos, s.selected)|
    ensures h.caption == "All Photos" <==> s.selected == AllCategoriesOption
    ensures s.selected != AllCategoriesOption ==> h.caption == s.selected
    ensures s.selected == AllCategoriesOption ==> h.count == |s.feed.photos|
  {
    var n := |FilterPhotos(s.feed.photos, s.selected)|;
    if s.selected == AllCategoriesOption then ResultsHeading("All Photos", n)
    else ResultsHeading(s.selected, n)
  }

  /** The heading as rendered text: the caption, then the count in decimal
      between parentheses, which reads back as the count. */
  function HeadingText(h: ResultsHeading): (t: string)
    ensures |t| >= |h.caption| + 4
    ensures t[..|h.caption|] == h.caption && t[|h.caption|..|h.caption| + 2] == " ("
    ensures t[|t| - 1] == ')'
    ensures var digits := t[|h.caption| + 2..|t| - 1];
            && (forall i :: 0 <= i < |digits| ==> IsDigit(digits[i]))
            && (|digits| > 1 ==> digits[0] != '0')
            && DigitsValue(digits) == h.count
  {
    var digits := NatToString(h.count);
    NatToStringRoundTrip(h.count);
    var t := h.caption + " (" + digits + ")";
    assert t[|h.caption| + 2..|t| - 1] == digits;
    t
  }

  /** The photo grid, once loading is over: the filtered feed. */
  function CategoriesGrid(s: CategoriesState): (shown: seq<Photo>)
    ensures IsSubsequence(shown, s.feed.photos)
    ensures s.selected == AllCategoriesOption ==> shown == s.feed.photos
    ensures s.selected != AllCategoriesOption ==> forall p :: p in shown <==> p in s.feed.photos && p.category == s.selected
    ensures |shown| == Heading(s).count
  {
    FilterPhotos(s.feed.photos, s.selected)
  }
}

=== FILE: category_filter.dfy ===
/** The row of category buttons above every gallery. */
module CategoryFilter {
  import opened Wrappers
  import opened Types
  import opened CategoryIcons

  /** `displayCategories`: the sentinel, then the taxonomy in order. */
  function DisplayCategories(): (r: seq<Selection>)
    ensures |r| == |AppCategories| + 1 == 7
    ensures r[0] == AllCategoriesOption
    ensures forall i :: 0 <= i < |AppCategories| ==> r[i + 1] == AppCategories[i]
    ensures forall i, j :: 0 <= i < j < |r| ==> r[i] != r[j]
  {
    [AllCategoriesOption, "Birthday", "Holiday", "Work", "School", "Friends", "College Friends"]
  }

  /** One rendered button: its text, whether it is pressed (`aria-pressed`,
      and the "default" variant), and its icon. */
  datatype FilterButton = FilterButton(text: Selection, pressed: bool, icon: Icon)

  /** The buttons for the current selection. */
  function FilterButtons(selected: Selection): (r: seq<FilterButton>)
    ensures |r| == |DisplayCategories()|
    ensures forall i :: 0 <= i < |r| ==> r[i].text == DisplayCategories()[i]
    ensures forall i :: 0 <= i < |r| ==> (r[i].pressed <==> r[i].text == selected)
    ensures forall i :: 0 <= i < |r| ==> r[i].icon == CategoryIcon(Some(r[i].text))
  {
    var labels := DisplayCategories();
    seq(|labels|, i requires 0 <= i < |labels| =>
      FilterButton(labels[i], selected == labels[i], CategoryIcon(Some(labels[i]))))
  }

  /** Exactly one button is pressed, the one whose label is the selection. */
  lemma {:induction false} ExactlyOnePressed(selected: Selection)
    ensures exists i :: 0 <= i < |FilterButtons(selected)| && FilterButtons(selected)[i].pressed
    ensures forall i, j ::
              0 <= i < |FilterButtons(selected)| && 0 <= j < |FilterButtons(selected)| &&
              FilterButtons(selected)[i].pressed && FilterButtons(selected)[j].pressed
              ==> i == j
  {
    var r := FilterButtons(selected);
    var labels := DisplayCategories();
    var k :| 0 <= k < |labels| && labels[k] == selected;
    assert r[k].pressed;
  }

  /** Clicking the button at `index` hands exactly its text to `onSelectCategory`. */
  function OnClick(selected: Selection, index: nat): (chosen: Option<Selection>)
    ensures index < |FilterButtons(selected)| ==> chosen == Some(FilterButtons(selected)[index].text)
    ensures index >= |FilterButtons(selected)| ==> chosen == None
  {
    if index < |DisplayCategories()| then Some(DisplayCategories()[index]) else None
  }
}

=== FILE: category_icon.dfy ===
/** The icon shown beside a category name. */
module CategoryIcons {
  import opened Wrappers
  import opened Types

  datatype Icon = Cake | Plane | Briefcase | BookOpen | Users | GraduationCap | ImageIcon

  /** `CategoryIcon`: the `switch` on the (possibly undefined) category. */
  function CategoryIcon(category: Option<string>): (icon: Icon)
    ensures category == Some("Birthday") <==> icon == Cake
    ensures category == Some("Holiday") <==> icon == Plane
    ensures category == Some("Work") <==> icon == Briefcase
    ensures category == Some("School") <==> icon == BookOpen
    ensures category == Some("Friends") <==> icon == Users
    ensures category == Some("College Friends") <==> icon == GraduationCap
  {
    match category
    case None => ImageIcon
    case Some(c) =>
      if c == "Birthday" then Cake
      else if c == "Holiday" then Plane
      else if c == "Work" then Briefcase
      else if c == "School" then BookOpen
      else if c == "Friends" then Users
      else if c == "College Friends" then GraduationCap
      else ImageIcon
  }

  /** Exactly the taxonomy members get a category icon of their own, distinct
      per category; anything else, the sentinel and `undefined` included, gets
      the generic image icon. */
  lemma IconsIdentifyCategories(a: Option<string>, b: Option<string>)
    ensures CategoryIcon(a) != ImageIcon <==> a.Some? && a.value in AppCategories
    ensures CategoryIcon(a) != ImageIcon && CategoryIcon(a) == CategoryIcon(b) ==> a == b
    ensures CategoryIcon(Some(AllCategoriesOption)) == ImageIcon
    ensures CategoryIcon(None) == ImageIcon
  {
  }
}

=== FILE: dates.dfy ===
/** JavaScript `Date` values and the loosely typed date fields the edit form
    reads. Parsing date text and formatting an instant as text are left
    abstract: callers pass them in as functions. */
module Dates {
  import opened Wrappers

  /** Largest magnitude, in milliseconds from the epoch, a `Date` can hold
      (ECMAScript time values span plus or minus 100,000,000 days). */
  const MaxTime: int := 8_640_000_000_000_000

  /** A `Date`: a time value in milliseconds, or an "Invalid Date" whose
      `getTime()` is NaN. */
  datatype JsDate = Valid(time: int) | InvalidDate

  /** `new Date(ms)` for an integral `ms`: out-of-range times are invalid. */
  function MakeDate(ms: int): (d: JsDate)
    ensures d.Valid? <==> -MaxTime <= ms <= MaxTime
    ensures d.Valid? ==> d.time == ms
  {
    if -MaxTime <= ms <= MaxTime then Valid(ms) else InvalidDate
  }

  /** The members of a non-null object that the edit form probes, in the order
      it probes them:
      - `toDate`: the result of calling it, when the object has a callable
        `toDate` (a Firestore Timestamp);
      - `seconds`: the value of a numeric `seconds` field;
      - `ownDate`: the object's own time, when it is an `instanceof Date`. */
  datatype JsObject = JsObject(toDate: Option<JsDate>, seconds: Option<int>, ownDate: Option<JsDate>)

  /** Any value a stored `postingDate` field can hold. `Missing` stands for
      `undefined`, `null`, `false` and `NaN`; a truthy value that is neither a
      string, an integral number nor an object probed above (for instance
      `true`) behaves like `Obj(JsObject(None, None, None))`. */
  datatype DateValue = Missing | Str(s: string) | Num(n: int) | Obj(o: JsObject)

  /** JavaScript truthiness of a date value. */
  predicate IsTruthy(v: DateValue) {
    match v
    case Missing => false
    case Str(s) => s != ""
    case Num(n) => n != 0
    case Obj(_) => true
  }

  /** The time of a valid `Date`; `None` for an invalid one, whose `getTime()`
      is NaN. */
  function TimeOf(d: JsDate): Option<int> {
    if d.Valid? then Some(d.time) else None
  }

  /** The instant `formatDateForInput` settles on, before formatting: a falsy
      value is rejected first; then `toDate`, a truthy numeric `seconds`, an own
      `Date`, a string (through the `parse` oracle standing for `new Date(s)`)
      and a number are tried in that order; an unrecognised shape or an invalid
      date yields `None`, meaning "fall back to the current time". */
  function ResolveDate(v: DateValue, parse: string -> JsDate): (r: Option<int>)
    ensures !IsTruthy(v) ==> r == None
    ensures v.Str? && v.s != "" ==> r == TimeOf(parse(v.s))
    ensures v.Num? && v.n != 0 ==> (r.Some? <==> -MaxTime <= v.n <= MaxTime)
    ensures v.Num? && r.Some? ==> r.value == v.n
    ensures v.Obj? && v.o.toDate.Some? ==> r == TimeOf(v.o.toDate.value)
    ensures v.Obj? && v.o.toDate.None? && v.o.seconds.Some? && v.o.seconds.value != 0 ==>
              (r.Some? <==> -MaxTime <= v.o.seconds.value * 1000 <= MaxTime)
              && (r.Some? ==> r.value == v.o.seconds.value * 1000)
    ensures v.Obj? && v.o.toDate.None? && (v.o.seconds.None? || v.o.seconds.value == 0) ==>
              r == TimeOf(v.o.ownDate.GetOr(InvalidDate))
  {
    var candidate :=
      match v
      case Missing => InvalidDate
      case Str(s) => if s == "" then InvalidDate else parse(s)
      case Num(n) => if n == 0 then InvalidDate else MakeDate(n)
      case Obj(o) =>
        if o.toDate.Some? then o.toDate.value
        else if o.seconds.Some? && o.seconds.value != 0 then MakeDate(o.seconds.value * 1000)
        else if o.ownDate.Some? then o.ownDate.value
        else InvalidDate;
    TimeOf(candidate)
  }

  /** A shape probed earlier wins over every shape probed later: an object with
      `toDate` resolves through it whatever its `seconds` or `Date`-ness, and
      one with a truthy `seconds` resolves through it whatever its `Date`-ness. */
  lemma DispatchPrecedence(parse: string -> JsDate, d: JsDate, s1: Option<int>, s2: Option<int>,
                           o1: Option<JsDate>, o2: Option<JsDate>, secs: int)
    requires secs != 0
    ensures ResolveDate(Obj(JsObject(Some(d), s1, o1)), parse) == ResolveDate(Obj(JsObject(Some(d), s2, o2)), parse)
    ensures ResolveDate(Obj(JsObject(None, Some(secs), o1)), parse) == ResolveDate(Obj(JsObject(None, Some(secs), o2)), parse)
  {
  }

  /** A Firestore Timestamp agrees with its plain `{seconds}` serialisation,
      except for the epoch itself: a zero `seconds` is falsy, so the plain form
      falls back to the current time while the Timestamp gives 1970-01-01. */
  lemma TimestampAgreesWithSeconds(parse: string -> JsDate, secs: int)
    requires -MaxTime <= secs * 1000 <= MaxTime
    ensures secs != 0 ==>
      ResolveDate(Obj(JsObject(Some(Valid(secs * 1000)), Some(secs), None)), parse)
      == ResolveDate(Obj(JsObject(None, Some(secs), None)), parse)
      == Some(secs * 1000)
    ensures secs == 0 ==>
      ResolveDate(Obj(JsObject(Some(Valid(0)), Some(0), None)), parse) == Some(0)
      && ResolveDate(Obj(JsObject(None, Some(0), None)), parse) == None
  {
  }

  /** A valid `Date` object resolves to its own time. */
  lemma DateObjectResolves(parse: string -> JsDate, t: int)
    ensures ResolveDate(Obj(JsObject(None, None, Some(Valid(t)))), parse) == Some(t)
  {
  }

  /** `formatDateForInput` and `formatTimeForInput` share one dispatch and
      differ only in how the chosen instant is rendered: `render` stands for
      `toISOString().split('T')[0]` in the first and for
      `toTimeString().slice(0, 5)` in the second. Whatever cannot be resolved
      to a valid instant falls back to `now`. */
  function FormatForInput(v: DateValue, now: int, parse: string -> JsDate,
                          render: int -> string): (r: string)
    ensures ResolveDate(v, parse).None? ==> r == render(now)
    ensures ResolveDate(v, parse).Some? ==> r == render(ResolveDate(v, parse).value)
  {
    render(ResolveDate(v, parse).GetOr(now))
  }
}

=== FILE: gallery.dfy ===
/** The client-side category filter and the snapshot-fed photo list that every
    gallery view (home, categories, admin) keeps. */
module Gallery {
  import opened Types

  /** `s` can be obtained from `t` by deleting elements, keeping order. */
  predicate IsSubsequence<T(==)>(s: seq<T>, t: seq<T>)
    decreases |t|
  {
    if |s| == 0 then true
    else if |t| == 0 then false
    else (s[0] == t[0] && IsSubsequence(s[1..], t[1..])) || IsSubsequence(s, t[1..])
  }

  /** `photos.filter(photo => photo.category === category)`. */
  function PhotosInCategory(photos: seq<Photo>, category: string): (r: seq<Photo>)
    ensures IsSubsequence(r, photos)
    ensures |r| <= |photos|
    ensures forall p :: p in r <==> p in photos && p.category == category
  {
    if |photos| == 0 then []
    else
      var rest := PhotosInCategory(photos[1..], category);
      if photos[0].category == category then
        assert ([photos[0]] + rest)[1..] == rest;
        [photos[0]] + rest
      else
        assert photos == [photos[0]] + photos[1..];
        rest
  }

  /** `filteredPhotos`: the whole list for the sentinel, otherwise the photos
      of the selected category. */
  function FilterPhotos(photos: seq<Photo>, selected: string): (r: seq<Photo>)
    ensures selected == AllCategoriesOption ==> r == photos
    ensures selected != AllCategoriesOption ==> r == PhotosInCategory(photos, selected)
    ensures IsSubsequence(r, photos) && |r| <= |photos|
  {
    SubsequenceReflexive(photos);
    if selected == AllCategoriesOption then photos else PhotosInCategory(photos, selected)
  }

  lemma {:induction false} SubsequenceReflexive<T>(s: seq<T>)
    ensures IsSubsequence(s, s)
  {
    if |s| > 0 {
      SubsequenceReflexive(s[1..]);
    }
  }

  /** Every order-preserving selection of same-category photos is at most as
      long as the filter's result, and one that is as long equals it: the
      filter keeps every matching photo, in the original relative order. */
  lemma {:induction false} FilterIsLongestMatchingSubsequence(photos: seq<Photo>, category: string, s: seq<Photo>)
    requires IsSubsequence(s, photos)
    requires forall i :: 0 <= i < |s| ==> s[i].category == category
    ensures |s| <= |PhotosInCategory(photos, category)|
    ensures |s| == |PhotosInCategory(photos, category)| ==> s == PhotosInCategory(photos, category)
    decreases |photos|
  {
    if |s| > 0 {
      var f := PhotosInCategory(photos, category);
      var ft := PhotosInCategory(photos[1..], category);
      if s[0] == photos[0] && IsSubsequence(s[1..], photos[1..]) {
        FilterIsLongestMatchingSubsequence(photos[1..], category, s[1..]);
        assert f == [photos[0]] + ft;
        assert s == [s[0]] + s[1..];
      } else {
        FilterIsLongestMatchingSubsequence(photos[1..], category, s);
        if photos[0].category == category {
          assert |f| == |ft| + 1;
        }
      }
    }
  }

  /** Filtering an already filtered list changes nothing. */
  lemma {:induction false} FilterIdempotent(photos: seq<Photo>, selected: string)
    ensures FilterPhotos(FilterPhotos(photos, selected), selected) == FilterPhotos(photos, selected)
  {
    if selected != AllCategoriesOption {
      InCategoryIdempotent(photos, selected);
    }
  }

  lemma {:induction false} InCategoryIdempotent(photos: seq<Photo>, category: string)
    ensures PhotosInCategory(PhotosInCategory(photos, category), category) == PhotosInCategory(photos, category)
  {
    if |photos| > 0 {
      InCategoryIdempotent(photos[1..], category);
      var rest := PhotosInCategory(photos[1..], category);
      if photos[0].category == category {
        assert ([photos[0]] + rest)[1..] == rest;
      }
    }
  }

  /** The list and loading flag a view keeps for one subscription. */
  datatype Feed = Feed(photos: seq<Photo>, loading: bool)

  /** What the subscription delivers: a full snapshot of the query's documents
      in the query's order, or an error. */
  datatype FeedEvent = Snapshot(docs: seq<Photo>) | SubscriptionError

  /** A view's feed before anything arrives. */
  const InitialFeed: Feed := Feed([], true)

  /** A snapshot replaces the list wholesale; an error keeps the last list.
      Either way loading is over. */
  function ApplyFeedEvent(feed: Feed, event: FeedEvent): (next: Feed)
    ensures !next.loading
    ensures event.Snapshot? ==> next.photos == event.docs
    ensures event.SubscriptionError? ==> next.photos == feed.photos
  {
    match event
    case Snapshot(docs) => Feed(docs, false)
    case SubscriptionError => Feed(feed.photos, false)
  }

  function ApplyFeedEvents(feed: Feed, events: seq<FeedEvent>): Feed
    decreases |events|
  {
    if |events| == 0 then feed
    else ApplyFeedEvents(ApplyFeedEvent(feed, events[0]), events[1..])
  }

  /** The documents of the last snapshot in `events`, or `before` if none. */
  function LastSnapshot(events: seq<FeedEvent>, before: seq<Photo>): seq<Photo>
    decreases |events|
  {
    if |events| == 0 then before
    else if events[|events| - 1].Snapshot? then events[|events| - 1].docs
    else LastSnapshot(events[..|events| - 1], before)
  }

  /** After any run of events the list is the last snapshot delivered (errors
      never clear or alter it), and loading is over once anything arrived. */
  lemma {:induction false} FeedShowsLastSnapshot(feed: Feed, events: seq<FeedEvent>)
    ensures ApplyFeedEvents(feed, events).photos == LastSnapshot(events, feed.photos)
    ensures |events| > 0 ==> !ApplyFeedEvents(feed, events).loading
    ensures |events| == 0 ==> ApplyFeedEvents(feed, events) == feed
    decreases |events|
  {
    if |events| > 0 {
      var next := ApplyFeedEvent(feed, events[0]);
      FeedShowsLastSnapshot(next, events[1..]);
      LastSnapshotSplit(events, feed.photos);
    }
  }

  lemma {:induction false} LastSnapshotSplit(events: seq<FeedEvent>, before: seq<Photo>)
    requires |events| > 0
    ensures LastSnapshot(events, before)
         == LastSnapshot(events[1..], ApplyFeedEvent(Feed(before, true), events[0]).photos)
    decreases |events|
  {
    if |events| > 1 {
      var last := events[|events| - 1];
      if !last.Snapshot? {
        LastSnapshotSplit(events[..|events| - 1], before);
        assert events[..|events| - 1][1..] == events[1..][..|events[1..]| - 1];
      }
    }
  }
}

=== FILE: home_page.dfy ===
/** The public home page: a main feed of all photos, a separate highlights
    feed (the three newest, as limited by its query), and the category filter. */
module HomePage {
  import opened Types
  import opened Gallery

  datatype HomeState = HomeState(main: Feed, highlights: Feed, selected: Selection)

  /** The events the page reacts to: one subscription's callback or the other's,
      or a click on the category filter. */
  datatype HomeEvent =
    | MainFeedEvent(event: FeedEvent)
    | HighlightsFeedEvent(event: FeedEvent)
    | SelectCategory(category: Selection)

  /** Both feeds loading and empty, no category filter. */
  const InitialHome: HomeState := HomeState(InitialFeed, InitialFeed, AllCategoriesOption)

  /** One event changes only its own part of the page. */
  function HomeStep(s: HomeState, e: HomeEvent): (t: HomeState)
    ensures e.MainFeedEvent? ==> t.highlights == s.highlights && t.selected == s.selected
    ensures e.HighlightsFeedEvent? ==> t.main == s.main && t.selected == s.selected
    ensures e.SelectCategory? ==> t.main == s.main && t.highlights == s.highlights && t.selected == e.category
    ensures e.MainFeedEvent? ==> t.main == ApplyFeedEvent(s.main, e.event) && !t.main.loading
    ensures e.HighlightsFeedEvent? ==> t.highlights == ApplyFeedEvent(s.highlights, e.event)
                                       && !t.highlights.loading
  {
    match e
    case MainFeedEvent(ev) => s.(main := ApplyFeedEvent(s.main, ev))
    case HighlightsFeedEvent(ev) => s.(highlights := ApplyFeedEvent(s.highlights, ev))
    case SelectCategory(c) => s.(selected := c)
  }

  function HomeRun(s: HomeState, events: seq<HomeEvent>): HomeState
    decreases |events|
  {
    if |events| == 0 then s else HomeRun(HomeStep(s, events[0]), events[1..])
  }

  /** Events addressed only to the main feed or the filter never touch the
      highlights feed. */
  lemma {:induction false} HighlightsIsolated(s: HomeState, events: seq<HomeEvent>)
    requires forall i :: 0 <= i < |events| ==> !events[i].HighlightsFeedEvent?
    ensures HomeRun(s, events).highlights == s.highlights
    decreases |events|
  {
    if |events| > 0 {
      HighlightsIsolated(HomeStep(s, events[0]), events[1..]);
    }
  }

  /** Events addressed only to the highlights feed or the filter never touch
      the main feed. */
  lemma {:induction false} MainIsolated(s: HomeState, events: seq<HomeEvent>)
    requires forall i :: 0 <= i < |events| ==> !events[i].MainFeedEvent?
    ensures HomeRun(s, events).main == s.main
    decreases |events|
  {
    if |events| > 0 {
      MainIsolated(HomeStep(s, events[0]), events[1..]);
    }
  }

  /** Until the highlights subscription delivers, the highlights strip stays
      loading and empty, whatever else happens on the page. */
  lemma HighlightsLoadingUntilDelivered(events: seq<HomeEvent>)
    requires forall i :: 0 <= i < |events| ==> !events[i].HighlightsFeedEvent?
    ensures HomeRun(InitialHome, events).highlights.loading
    ensures HomeRun(InitialHome, events).highlights.photos == []
  {
    HighlightsIsolated(InitialHome, events);
  }

  datatype GalleryView = LoadingPhotos | Grid(photos: seq<Photo>)

  datatype HighlightsView = LoadingHighlights | Highlights(photos: seq<Photo>) | NoHighlights

  /** The main gallery: a loading message, then the filtered grid. */
  function HomeGallery(s: HomeState): (v: GalleryView)
    ensures v.LoadingPhotos? <==> s.main.loading
    ensures v.Grid? ==> IsSubsequence(v.photos, s.main.photos)
    ensures v.Grid? && s.selected == AllCategoriesOption ==> v.photos == s.main.photos
    ensures v.Grid? && s.selected != AllCategoriesOption ==>
              forall p :: p in v.photos <==> p in s.main.photos && p.category == s.selected
    ensures v.Grid? ==> v.photos == FilterPhotos(s.main.photos, s.selected)
  {
    if s.main.loading then LoadingPhotos else Grid(FilterPhotos(s.main.photos, s.selected))
  }

  /** Until the main subscription delivers, the main gallery shows its
      loading message, whatever category is picked meanwhile. */
  lemma GalleryLoadingUntilDelivered(events: seq<HomeEvent>)
    requires forall i :: 0 <= i < |events| ==> !events[i].MainFeedEvent?
    ensures HomeGallery(HomeRun(InitialHome, events)) == LoadingPhotos
  {
    MainIsolated(InitialHome, events);
  }

  /** The highlights section: unaffected by the category filter. */
  function HomeHighlights(s: HomeState): (v: HighlightsView)
    ensures v.LoadingHighlights? <==> s.highlights.loading
    ensures v.NoHighlights? <==> !s.highlights.loading && |s.highlights.photos| == 0
    ensures v.Highlights? ==> v.photos == s.highlights.photos
  {
    if s.highlights.loading then LoadingHighlights
    else if |s.highlights.photos| > 0 then Highlights(s.highlights.photos)
    else NoHighlights
  }
}

=== FILE: photo_edit_form.dfy ===
/** The edit form: pre-filling from a photo, validation, the update payload
    (trimmed text, `null` for cleared optional fields, comma-separated tags,
    the posting date with its fallback) and the locally merged photo. */
module PhotoEditForm {
  import opened Wrappers
  import opened Strings
  import opened Dates
  import opened Types

  /** The form's text state. */
  datatype EditForm = EditForm(
    title: string,
    altText: string,
    caption: string,
    location: string,
    description: string,
    category: string,
    tags: string,
    postingDate: string,
    postingTime: string)

  /** The form as first shown for `p`: missing text fields start empty, tags
      are joined with ", ", and the date and time inputs show the stored
      posting date or, failing that, `now`. */
  function InitialEditForm(p: Photo, now: int, parse: string -> JsDate,
                           dayOf: int -> string, clockOf: int -> string): (f: EditForm)
    ensures f.title == p.name && f.category == p.category
    ensures p.tags.Some? ==> f.tags == Join(p.tags.value, ", ")
    ensures p.tags.None? ==> f.tags == ""
    ensures f.altText == p.altText.GetOr("") && f.caption == p.caption.GetOr("")
    ensures f.location == p.location.GetOr("") && f.description == p.description.GetOr("")
    ensures f.postingDate == FormatForInput(p.postingDate, now, parse, dayOf)
    ensures f.postingTime == FormatForInput(p.postingDate, now, parse, clockOf)
  {
    EditForm(
      p.name,
      p.altText.GetOr(""),
      p.caption.GetOr(""),
      p.location.GetOr(""),
      p.description.GetOr(""),
      p.category,
      if p.tags.Some? then Join(p.tags.value, ", ") else "",
      FormatForInput(p.postingDate, now, parse, dayOf),
      FormatForInput(p.postingDate, now, parse, clockOf))
  }

  /** A tag as the form writes it: non-empty, trimmed, free of commas. */
  predicate IsCleanTag(t: string) {
    |t| > 0 && IsTrimmed(t) && ',' !in t
  }

  /** `.map(tag => tag.trim()).filter(tag => tag.length > 0)`. */
  function CleanTags(pieces: seq<string>): (r: seq<string>)
    requires forall i :: 0 <= i < |pieces| ==> ',' !in pieces[i]
    ensures |r| <= |pieces|
    ensures forall i :: 0 <= i < |r| ==> IsCleanTag(r[i])
  {
    if |pieces| == 0 then []
    else
      var t := Trim(pieces[0]);
      (if |t| > 0 then [t] else []) + CleanTags(pieces[1..])
  }

  /** `.map(tag => tag.trim())`: every piece, trimmed. */
  function TrimAll(pieces: seq<string>): (r: seq<string>)
    ensures |r| == |pieces|
    ensures forall i :: 0 <= i < |r| ==> r[i] == Trim(pieces[i])
  {
    if |pieces| == 0 then [] else [Trim(pieces[0])] + TrimAll(pieces[1..])
  }

  lemma {:induction false} TrimAllAppend(a: seq<string>, b: seq<string>)
    ensures TrimAll(a + b) == TrimAll(a) + TrimAll(b)
    decreases |a|
  {
    if |a| == 0 {
      assert a + b == b;
    } else {
      assert (a + b)[1..] == a[1..] + b;
      TrimAllAppend(a[1..], b);
    }
  }

  /** `.filter(tag => tag.length > 0)`. */
  function KeepNonEmpty(ts: seq<string>): (r: seq<string>)
    ensures forall t :: t in r <==> t in ts && |t| > 0
  {
    if |ts| == 0 then []
    else (if |ts[0]| > 0 then [ts[0]] else []) + KeepNonEmpty(ts[1..])
  }

  /** One entry is kept iff it is non-empty; with `KeepNonEmptyAppend` this
      fixes the result, repeats and order included. */
  lemma KeepNonEmptyOfOne(t: string)
    ensures KeepNonEmpty([t]) == if |t| > 0 then [t] else []
  {
    assert [t][1..] == [];
  }

  lemma {:induction false} KeepNonEmptyAppend(a: seq<string>, b: seq<string>)
    ensures KeepNonEmpty(a + b) == KeepNonEmpty(a) + KeepNonEmpty(b)
    decreases |a|
  {
    if |a| == 0 {
      assert a + b == b;
    } else {
      assert (a + b)[1..] == a[1..] + b;
      KeepNonEmptyAppend(a[1..], b);
    }
  }

  /** The piece-by-piece cleaning is exactly the source's map-then-filter. */
  lemma {:induction false} CleanTagsIsMapFilter(pieces: seq<string>)
    requires forall i :: 0 <= i < |pieces| ==> ',' !in pieces[i]
    ensures CleanTags(pieces) == KeepNonEmpty(TrimAll(pieces))
  {
    if |pieces| > 0 {
      CleanTagsIsMapFilter(pieces[1..]);
    }
  }

  /** The tags are exactly the pieces whose trimmed text is non-empty. */
  lemma CleanTagsMembers(pieces: seq<string>)
    requires forall i :: 0 <= i < |pieces| ==> ',' !in pieces[i]
    ensures forall t :: t in CleanTags(pieces) <==> |t| > 0 && t in TrimAll(pieces)
  {
    CleanTagsIsMapFilter(pieces);
  }

  /** Cleaning works piece by piece: the tags of a concatenation are the tags
      of each part, in order. */
  lemma CleanTagsAppend(a: seq<string>, b: seq<string>)
    requires forall i :: 0 <= i < |a| ==> ',' !in a[i]
    requires forall i :: 0 <= i < |b| ==> ',' !in b[i]
    ensures CleanTags(a + b) == CleanTags(a) + CleanTags(b)
  {
    CleanTagsIsMapFilter(a);
    CleanTagsIsMapFilter(b);
    CleanTagsIsMapFilter(a + b);
    TrimAllAppend(a, b);
    KeepNonEmptyAppend(TrimAll(a), TrimAll(b));
  }

  /** One piece gives its trimmed text as a tag, or nothing when that is empty. */
  lemma CleanTagsOfOne(x: string)
    requires ',' !in x
    ensures CleanTags([x]) == if |Trim(x)| > 0 then [Trim(x)] else []
  {
    assert [x][1..] == [];
  }

  /** The `tags` field written on submit: `null` for blank text, otherwise
      the comma-separated pieces, trimmed, with empty ones dropped (which can
      leave an empty list, as for ", ,"). */
  function ParseTags(text: string): (r: Option<seq<string>>)
    ensures r.None? <==> AllWhitespace(text)
    ensures r.Some? ==> forall i :: 0 <= i < |r.value| ==> IsCleanTag(r.value[i])
    ensures r.Some? ==> forall t :: t in r.value <==> |t| > 0 && t in TrimAll(Split(text, ','))
    ensures r.Some? ==> r.value == KeepNonEmpty(TrimAll(Split(text, ',')))
  {
    if |Trim(text)| > 0 then
      CleanTagsMembers(Split(text, ','));
      CleanTagsIsMapFilter(Split(text, ','));
      Some(CleanTags(Split(text, ',')))
    else None
  }

  /** A comma ends one run of tags and starts the next: the tags of
      `a + "," + b` are those of `a` followed by those of `b`. */
  lemma TagsAcrossComma(a: string, b: string)
    ensures CleanTags(Split(a + [','] + b, ',')) == CleanTags(Split(a, ',')) + CleanTags(Split(b, ','))
  {
    SplitAround(a, ',', b);
    CleanTagsAppend(Split(a, ','), Split(b, ','));
  }

  /** An empty piece between two commas is dropped: "a,,b" gives [a, b]. */
  lemma EmptyPieceDropped(a: string, b: string)
    requires IsCleanTag(a) && IsCleanTag(b)
    ensures ParseTags(a + [','] + [','] + b) == Some([a, b])
  {
    EmptyPieceSplit(a, b);
    EmptyPieceClean(a, "", b);
    assert !IsJsWhitespace((a + [','] + [','] + b)[0]);
  }

  lemma EmptyPieceSplit(a: string, b: string)
    requires IsCleanTag(a) && IsCleanTag(b)
    ensures Split(a + [','] + [','] + b, ',') == [a, "", b]
  {
    assert a + [','] + [','] + b == a + [','] + ("" + [','] + b);
    SplitAfterPiece(a, ',', "" + [','] + b);
    SplitAfterPiece("", ',', b);
  }

  lemma EmptyPieceClean(a: string, e: string, b: string)
    requires IsCleanTag(a) && IsCleanTag(b) && |e| == 0
    ensures CleanTags([a, e, b]) == [a, b]
  {
    BlankThenTag(e, b);
    TagThenRest(a, [e] + [b], [b]);
    assert [a, e, b] == [a] + ([e] + [b]);
    assert [a, b] == [a] + [b];
  }

  /** A clean tag in front of pieces whose tags are known. */
  lemma TagThenRest(a: string, rest: seq<string>, tags: seq<string>)
    requires IsCleanTag(a)
    requires forall i :: 0 <= i < |rest| ==> ',' !in rest[i]
    requires CleanTags(rest) == tags
    ensures CleanTags([a] + rest) == [a] + tags
  {
    CleanTagsFirst(a, a, rest);
  }

  lemma BlankThenTag(e: string, b: string)
    requires IsCleanTag(b) && |e| == 0
    ensures CleanTags([e] + [b]) == [b]
  {
    assert |Trim(e)| == 0;
    CleanTagsSkipBlank(e, [b]);
    CleanTagsOfTag(b);
  }

  lemma CleanTagsOfTag(b: string)
    requires IsCleanTag(b)
    ensures CleanTags([b]) == [b]
  {
    CleanTagsOfOne(b);
  }

  lemma CleanTagsSkipBlank(e: string, rest: seq<string>)
    requires ',' !in e && |Trim(e)| == 0
    requires forall i :: 0 <= i < |rest| ==> ',' !in rest[i]
    ensures CleanTags([e] + rest) == CleanTags(rest)
  {
    assert ([e] + rest)[1..] == rest;
  }

  /** Whitespace around a comma is trimmed away: "x , y" gives [x, y]. */
  lemma SpacesAroundCommaTrimmed(x: string, u: string, v: string, y: string)
    requires IsCleanTag(x) && IsCleanTag(y) && AllWhitespace(u) && AllWhitespace(v)
    ensures ParseTags(x + u + [','] + v + y) == Some([x, y])
  {
    SpacedCommaSplit(x, u, v, y);
    SpacedPiecesClean(x, u, v, y);
    assert !IsJsWhitespace((x + u + [','] + v + y)[0]);
  }

  lemma SpacedCommaSplit(x: string, u: string, v: string, y: string)
    requires IsCleanTag(x) && IsCleanTag(y) && AllWhitespace(u) && AllWhitespace(v)
    ensures Split(x + u + [','] + v + y, ',') == [x + u, v + y]
  {
    assert x + u + [','] + v + y == (x + u) + [','] + (v + y);
    NoCommaAfterWhitespace(v, y);
    NoCommaBeforeWhitespace(x, u);
    SplitAfterPiece(x + u, ',', v + y);
  }

  lemma SpacedPiecesClean(x: string, u: string, v: string, y: string)
    requires IsCleanTag(x) && IsCleanTag(y) && AllWhitespace(u) && AllWhitespace(v)
    ensures ',' !in x + u && ',' !in v + y
    ensures CleanTags([x + u, v + y]) == [x, y]
  {
    var a, b := x + u, v + y;
    assert [a] + [b] == [a, b];
    assert [x] + [y] == [x, y];
    LeadingSpacePieceClean(v, y);
    NoCommaBeforeWhitespace(x, u);
    TrimBeforeWhitespace(x, u);
    CleanTagsFirst(a, x, [b]);
  }

  lemma LeadingSpacePieceClean(v: string, y: string)
    requires IsCleanTag(y) && AllWhitespace(v)
    ensures ',' !in v + y
    ensures CleanTags([v + y]) == [y]
  {
    NoCommaAfterWhitespace(v, y);
    TrimAfterWhitespace(v, y);
    CleanTagsFirst(v + y, y, []);
    assert [v + y] + [] == [v + y];
  }

  lemma NoCommaBeforeWhitespace(t: string, w: string)
    requires AllWhitespace(w) && ',' !in t
    ensures ',' !in t + w
  {
  }

  lemma NoCommaAfterWhitespace(w: string, t: string)
    requires AllWhitespace(w) && ',' !in t
    ensures ',' !in w + t
  {
  }

  /** A first piece that trims to a tag contributes exactly that tag. */
  lemma CleanTagsFirst(a: string, t: string, rest: seq<string>)
    requires ',' !in a && Trim(a) == t && |t| > 0
    requires forall i :: 0 <= i < |rest| ==> ',' !in rest[i]
    ensures CleanTags([a] + rest) == [t] + CleanTags(rest)
  {
    assert ([a] + rest)[1..] == rest;
  }

  /** Whitespace alone yields no tags. */
  lemma CleanTagsOfBlank(w: string)
    requires AllWhitespace(w)
    ensures CleanTags(Split(w, ',')) == []
  {
    NoCommaAfterWhitespace(w, "");
    assert w + "" == w;
  }

  /** Whitespace, then tags joined by ", ", splits back into the tags. */
  lemma {:induction false} CleanTagsOfJoin(w: string, ts: seq<string>)
    requires AllWhitespace(w)
    requires forall i :: 0 <= i < |ts| ==> IsCleanTag(ts[i])
    ensures CleanTags(Split(w + Join(ts, ", "), ',')) == ts
    decreases |ts|
  {
    if |ts| == 0 {
      assert w + Join(ts, ", ") == w;
      CleanTagsOfBlank(w);
    } else if |ts| == 1 {
      CleanTagsOfJoinOne(w, ts[0]);
      assert w + Join(ts, ", ") == w + ts[0];
    } else {
      CleanTagsOfJoinStep(w, ts);
    }
  }

  lemma CleanTagsOfJoinOne(w: string, t: string)
    requires AllWhitespace(w) && IsCleanTag(t)
    ensures CleanTags(Split(w + t, ',')) == [t]
  {
    NoCommaAfterWhitespace(w, t);
    TrimAfterWhitespace(w, t);
    CleanTagsFirst(w + t, t, []);
    assert [w + t] + [] == [w + t];
  }

  lemma JoinAfterWhitespace(w: string, ts: seq<string>)
    requires |ts| >= 2
    ensures w + Join(ts, ", ") == (w + ts[0]) + [','] + (" " + Join(ts[1..], ", "))
  {
    var j := Join(ts[1..], ", ");
    assert Join(ts, ", ") == ts[0] + ", " + j;
    SeqAssoc(w, ts[0], j);
  }

  lemma SeqAssoc(w: string, t: string, j: string)
    ensures w + (t + ", " + j) == (w + t) + [','] + (" " + j)
  {
    assert ", " == [','] + " ";
  }

  lemma {:induction false} CleanTagsOfJoinStep(w: string, ts: seq<string>)
    requires AllWhitespace(w) && |ts| >= 2
    requires forall i :: 0 <= i < |ts| ==> IsCleanTag(ts[i])
    ensures CleanTags(Split(w + Join(ts, ", "), ',')) == ts
    decreases |ts|, 0
  {
    var head := w + ts[0];
    var tail := ts[1..];
    var rest := Join(tail, ", ");
    var pieces := Split(" " + rest, ',');
    assert [ts[0]] + tail == ts;
    assert IsCleanTag(ts[0]);
    assert ',' !in head by {
      NoCommaAfterWhitespace(w, ts[0]);
    }
    assert Split(w + Join(ts, ", "), ',') == [head] + pieces by {
      JoinAfterWhitespace(w, ts);
      SplitAfterPiece(head, ',', " " + rest);
    }
    assert CleanTags(pieces) == tail by {
      assert AllWhitespace(" ");
      assert forall i :: 0 <= i < |tail| ==> IsCleanTag(tail[i]);
      CleanTagsOfJoin(" ", tail);
    }
    assert Trim(head) == ts[0] by {
      TrimAfterWhitespace(w, ts[0]);
    }
    CleanTagsFirst(head, ts[0], pieces);
  }

  /** Tags shown joined by ", " (how the form is pre-filled) parse back to the
      same list; an empty list comes back as `null`. */
  lemma TagsRoundTrip(ts: seq<string>)
    requires forall i :: 0 <= i < |ts| ==> IsCleanTag(ts[i])
    ensures ParseTags(Join(ts, ", ")) == if |ts| == 0 then None else Some(ts)
  {
    CleanTagsOfJoin("", ts);
    assert "" + Join(ts, ", ") == Join(ts, ", ");
    if |ts| > 0 {
      assert Join(ts, ", ")[0] == ts[0][0];
    }
  }

  /** An optional text field as written: the trimmed text, or `null` when blank. */
  function OptionalText(text: string): (r: Option<string>)
    ensures r.None? <==> AllWhitespace(text)
    ensures r.Some? ==> r.value == Trim(text) && |r.value| > 0
  {
    var t := Trim(text);
    if |t| > 0 then Some(t) else None
  }

  /** The posting instant: the date and time inputs read together by `parse`
      (standing for `new Date(date + "T" + time)`), or `now` when that is not
      a valid date. */
  function PostingInstant(date: string, time: string, now: int, parse: string -> JsDate): (t: int)
    ensures parse(date + "T" + time).Valid? ==> t == parse(date + "T" + time).time
    ensures parse(date + "T" + time).InvalidDate? ==> t == now
  {
    var d := parse(date + "T" + time);
    if d.Valid? then d.time else now
  }

  /** The object passed to `updateDoc`. It has no `id` and no `src` field, so
      the update can never change either. `None` in an optional field is an
      explicit `null`, which removes the stored value. */
  datatype EditPayload = EditPayload(
    name: string,
    category: string,
    description: string,
    altText: string,
    postingDate: int,
    updatedAt: ServerValue,
    caption: Option<string>,
    location: Option<string>,
    tags: Option<seq<string>>)

  /** Both required fields have something besides whitespace. */
  predicate RequiredFieldsPresent(f: EditForm) {
    !AllWhitespace(f.title) && !AllWhitespace(f.altText)
  }

  /** The payload of a form that passed validation; `stripHtml` stands for the
      DOM-based tag stripping applied to the description. */
  function BuildPayload(f: EditForm, now: int, parse: string -> JsDate,
                        stripHtml: string -> string): (p: EditPayload)
    requires RequiredFieldsPresent(f)
    ensures |p.name| > 0 && IsTrimmed(p.name) && p.name == Trim(f.title)
    ensures |p.altText| > 0 && IsTrimmed(p.altText) && p.altText == Trim(f.altText)
    ensures p.category == f.category
    ensures p.description == stripHtml(f.description)
    ensures p.caption.None? <==> AllWhitespace(f.caption)
    ensures p.caption.Some? ==> p.caption.value == Trim(f.caption) && |p.caption.value| > 0
    ensures p.location.None? <==> AllWhitespace(f.location)
    ensures p.location.Some? ==> p.location.value == Trim(f.location) && |p.location.value| > 0
    ensures p.tags.None? <==> AllWhitespace(f.tags)
    ensures p.tags.Some? ==> forall i :: 0 <= i < |p.tags.value| ==> IsCleanTag(p.tags.value[i])
    ensures p.tags == ParseTags(f.tags)
    ensures p.postingDate == PostingInstant(f.postingDate, f.postingTime, now, parse)
  {
    EditPayload(
      Trim(f.title),
      f.category,
      stripHtml(f.description),
      Trim(f.altText),
      PostingInstant(f.postingDate, f.postingTime, now, parse),
      ServerTimestamp,
      OptionalText(f.caption),
      OptionalText(f.location),
      ParseTags(f.tags))
  }

  /** `{...photo, ...updatedData, updatedAt: new Date()}`: the photo handed to
      `onSave`. The posting date becomes a `Date` object. */
  function MergeUpdate(photo: Photo, p: EditPayload, now: int): (m: Photo)
    ensures m.id == photo.id && m.src == photo.src && m.createdAt == photo.createdAt
    ensures m.name == p.name && m.category == p.category
    ensures m.altText == Some(p.altText) && m.description == Some(p.description)
    ensures m.caption == p.caption && m.location == p.location && m.tags == p.tags
    ensures forall parse :: ResolveDate(m.postingDate, parse) == Some(p.postingDate)
    ensures m.updatedAt == Some(now)
  {
    Photo(photo.id, photo.src, p.name, p.category, Some(p.description), photo.createdAt,
          Some(p.altText), p.caption, p.location, p.tags,
          Obj(JsObject(None, None, Some(Valid(p.postingDate)))), Some(now))
  }

  datatype EditOutcome =
    | MissingRequiredInformation
    | UpdateFailed(payload: EditPayload)
    | Updated(payload: EditPayload, photo: Photo)

  /** `handleSubmit`: validation, then one `updateDoc` whose success
      (`written`) decides between the failure notice and `onSave`. */
  function HandleEditSubmit(photo: Photo, f: EditForm, now: int, parse: string -> JsDate,
                            stripHtml: string -> string, written: bool): (r: EditOutcome)
    ensures r.MissingRequiredInformation? <==> !RequiredFieldsPresent(f)
    ensures r.UpdateFailed? <==> RequiredFieldsPresent(f) && !written
    ensures r.Updated? <==> RequiredFieldsPresent(f) && written
    ensures !r.MissingRequiredInformation? ==> r.payload == BuildPayload(f, now, parse, stripHtml)
    ensures r.Updated? ==> r.photo == MergeUpdate(photo, r.payload, now)
  {
    if !RequiredFieldsPresent(f) then MissingRequiredInformation
    else
      var p := BuildPayload(f, now, parse, stripHtml);
      if written then Updated(p, MergeUpdate(photo, p, now)) else UpdateFailed(p)
  }

  /** Saving, reopening the saved photo and saving again without touching the
      form writes the same text fields; the only change is that a tag text
      with no real tags (saved as an empty list) is saved as `null` the second
      time. */
  lemma ResaveIsStable(photo: Photo, f: EditForm, now: int, parse: string -> JsDate,
                       stripHtml: string -> string, dayOf: int -> string, clockOf: int -> string)
    requires RequiredFieldsPresent(f)
    ensures var p := BuildPayload(f, now, parse, stripHtml);
            var f2 := InitialEditForm(MergeUpdate(photo, p, now), now, parse, dayOf, clockOf);
            RequiredFieldsPresent(f2)
            && var p2 := BuildPayload(f2, now, parse, stripHtml);
            && p2.name == p.name && p2.altText == p.altText && p2.category == p.category
            && p2.caption == p.caption && p2.location == p.location
            && p2.tags == (if p.tags == Some([]) then None else p.tags)
  {
    var p := BuildPayload(f, now, parse, stripHtml);
    var m := MergeUpdate(photo, p, now);
    var f2 := InitialEditForm(m, now, parse, dayOf, clockOf);
    assert IsStoredPayload(p);
    ResaveFields(p, f2, now, parse, stripHtml);
  }

  /** What a built payload guarantees about the text it stores. */
  predicate IsStoredPayload(p: EditPayload) {
    && |p.name| > 0 && IsTrimmed(p.name)
    && |p.altText| > 0 && IsTrimmed(p.altText)
    && (p.caption.Some? ==> IsTrimmed(p.caption.value) && |p.caption.value| > 0)
    && (p.location.Some? ==> IsTrimmed(p.location.value) && |p.location.value| > 0)
    && (p.tags.Some? ==> forall i :: 0 <= i < |p.tags.value| ==> IsCleanTag(p.tags.value[i]))
  }

  /** A form filled from a stored payload builds that payload's text again. */
  lemma ResaveFields(p: EditPayload, f2: EditForm, now: int, parse: string -> JsDate,
                     stripHtml: string -> string)
    requires IsStoredPayload(p)
    requires f2.title == p.name && f2.altText == p.altText && f2.category == p.category
    requires f2.caption == p.caption.GetOr("") && f2.location == p.location.GetOr("")
    requires f2.tags == if p.tags.Some? then Join(p.tags.value, ", ") else ""
    ensures RequiredFieldsPresent(f2)
            && var p2 := BuildPayload(f2, now, parse, stripHtml);
            && p2.name == p.name && p2.altText == p.altText && p2.category == p.category
            && p2.caption == p.caption && p2.location == p.location
            && p2.tags == (if p.tags == Some([]) then None else p.tags)
  {
    assert RequiredFieldsPresent(f2) by {
      TrimmedTextPresent(p.name);
      TrimmedTextPresent(p.altText);
    }
    var p2 := BuildPayload(f2, now, parse, stripHtml);
    assert p2.name == p.name && p2.altText == p.altText by {
      assert p2.name == Trim(p.name) && p2.altText == Trim(p.altText);
    }
    assert p2.caption == p.caption by { OptionalTextStable(p.caption); }
    assert p2.location == p.location by { OptionalTextStable(p.location); }
    assert p2.tags == (if p.tags == Some([]) then None else p.tags) by { TagsStable(p.tags); }
  }

  /** Non-empty trimmed text is not blank. */
  lemma TrimmedTextPresent(t: string)
    requires IsTrimmed(t) && |t| > 0
    ensures !AllWhitespace(t)
  {
    assert !IsJsWhitespace(t[0]);
  }

  /** A stored optional text shown in the form is written back unchanged. */
  lemma OptionalTextStable(o: Option<string>)
    requires o.Some? ==> IsTrimmed(o.value) && |o.value| > 0
    ensures OptionalText(o.GetOr("")) == o
  {
  }

  /** Stored tags shown in the form are written back unchanged, except that
      an empty list becomes `null`. */
  lemma TagsStable(tags: Option<seq<string>>)
    requires tags.Some? ==> forall i :: 0 <= i < |tags.value| ==> IsCleanTag(tags.value[i])
    ensures ParseTags(if tags.Some? then Join(tags.value, ", ") else "")
            == if tags == Some([]) then None else tags
  {
    if tags.Some? {
      TagsRoundTrip(tags.value);
    } else {
      assert AllWhitespace("");
    }
  }
}

=== FILE: photo_upload_form.dfy ===
/** The single-file upload form: file selection, validation, the storage path,
    the one record written on success, and how the form state settles after
    each way the upload can end. */
module PhotoUploadForm {
  import opened Wrappers
  import opened Strings
  import opened Types

  /** A chosen file; only its name reaches the model. */
  datatype File = File(name: string)

  /** The form state: chosen file, preview data URL, category, the uploading
      flag that disables the form, and the progress percentage shown. */
  datatype UploadForm = UploadForm(file: Option<File>, preview: Option<string>, category: string,
                                   uploading: bool, progress: int)

  /** Nothing chosen, not uploading, the first taxonomy entry selected. */
  function InitialUploadForm(): (s: UploadForm)
    ensures s.category == AppCategories[0] == "Birthday"
    ensures s.file.None? && s.preview.None? && !s.uploading && s.progress == 0
  {
    UploadForm(None, None, AppCategories[0], false, 0)
  }

  /** `handleFileChange`: a chosen file is kept (its preview arrives later,
      through `PreviewLoaded`); no file clears both file and preview. */
  function HandleFileChange(s: UploadForm, chosen: Option<File>): (t: UploadForm)
    ensures chosen.None? ==> t.file.None? && t.preview.None?
    ensures chosen.Some? ==> t.file == chosen && t.preview == s.preview
    ensures t.category == s.category && t.uploading == s.uploading && t.progress == s.progress
  {
    if chosen.Some? then s.(file := chosen) else s.(file := None, preview := None)
  }

  /** The file reader finished: its data URL becomes the preview. */
  function PreviewLoaded(s: UploadForm, dataUrl: string): (t: UploadForm)
    ensures t.preview == Some(dataUrl) && t.file == s.file && t.category == s.category
    ensures t.uploading == s.uploading && t.progress == s.progress
  {
    s.(preview := Some(dataUrl))
  }

  const StoragePrefix: string := "photos/"

  /** `photos/${Date.now()}_${file.name}`, for the millisecond clock `now`. */
  function StoragePath(now: nat, fileName: string): (path: string)
    ensures |path| > |StoragePrefix| + |fileName| && path[..|StoragePrefix|] == StoragePrefix
    ensures path[|path| - |fileName|..] == fileName
    ensures |path| >= |StoragePrefix| + |fileName| + 2 && path[|path| - |fileName| - 1] == '_'
    ensures var digits := path[|StoragePrefix|..|path| - |fileName| - 1];
            IsCanonicalDecimal(digits) && DigitsValue(digits) == now
  {
    var digits := NatToString(now);
    NatToStringRoundTrip(now);
    var path := StoragePrefix + digits + "_" + fileName;
    assert path[|StoragePrefix|..|path| - |fileName| - 1] == digits;
    path
  }

  /** The number of leading decimal digits of `s`. */
  function DigitPrefixLength(s: string): (k: nat)
    ensures k <= |s|
    ensures forall i :: 0 <= i < k ==> IsDigit(s[i])
    ensures k < |s| ==> !IsDigit(s[k])
  {
    if |s| > 0 && IsDigit(s[0]) then 1 + DigitPrefixLength(s[1..]) else 0
  }

  /** Reads a storage path back into its clock value and file name. */
  function ParseStoragePath(path: string): Option<(nat, string)>
  {
    if |path| < |StoragePrefix| || path[..|StoragePrefix|] != StoragePrefix then None
    else
      var rest := path[|StoragePrefix|..];
      var k := DigitPrefixLength(rest);
      if 0 < k < |rest| && rest[k] == '_' && (k == 1 || rest[0] != '0') then
        Some((DigitsValue(rest[..k]), rest[k + 1..]))
      else None
  }

  lemma {:induction false} DigitPrefixOfDigits(digits: string, tail: string)
    requires forall i :: 0 <= i < |digits| ==> IsDigit(digits[i])
    requires |tail| > 0 && !IsDigit(tail[0])
    ensures DigitPrefixLength(digits + tail) == |digits|
    decreases |digits|
  {
    if |digits| > 0 {
      assert (digits + tail)[1..] == digits[1..] + tail;
      DigitPrefixOfDigits(digits[1..], tail);
    } else {
      assert digits + tail == tail;
    }
  }

  /** The storage path records the clock value and the file name recoverably,
      so two uploads get the same path only at the same millisecond with the
      same file name. */
  lemma StoragePathRoundTrip(now: nat, fileName: string)
    ensures ParseStoragePath(StoragePath(now, fileName)) == Some((now, fileName))
  {
    var digits := NatToString(now);
    var path := StoragePath(now, fileName);
    assert path[|StoragePrefix|..] == digits + ("_" + fileName);
    DigitPrefixOfDigits(digits, "_" + fileName);
    var rest := digits + ("_" + fileName);
    assert rest[..|digits|] == digits;
    assert rest[|digits| + 1..] == fileName;
    NatToStringRoundTrip(now);
  }

  /** Every path the reader accepts is the path written for the clock value
      and file name it reads back, so reading loses nothing and accepts no
      zero-padded clock. */
  lemma ParsedPathRebuilds(path: string)
    requires ParseStoragePath(path).Some?
    ensures StoragePath(ParseStoragePath(path).value.0, ParseStoragePath(path).value.1) == path
  {
    var rest := path[|StoragePrefix|..];
    var k := DigitPrefixLength(rest);
    var digits := rest[..k];
    assert IsCanonicalDecimal(digits) by {
      assert k > 1 ==> digits[0] == rest[0];
    }
    CanonicalDecimalUnique(digits);
    assert rest == digits + "_" + rest[k + 1..];
    assert path == StoragePrefix + rest;
  }

  /** How the storage and database calls turned out:
      - `StartThrew`: creating the reference or starting the upload threw;
      - `TransferFailed`: the upload's error callback ran;
      - `UrlFailed`: the upload completed but `getDownloadURL` rejected;
      - `Transferred`: the upload completed with `downloadUrl`, and `added`
        tells whether `addDoc` succeeded. */
  datatype TransferResult =
    | StartThrew
    | TransferFailed
    | UrlFailed
    | Transferred(downloadUrl: string, added: bool)

  /** The document written by `addDoc`: exactly these four fields. */
  datatype UploadRecord = UploadRecord(src: string, name: string, category: string, createdAt: ServerValue)

  /** The notification shown; `NoNotification` is a rejection nobody handles. */
  datatype UploadOutcome =
    | MissingInformation
    | UnexpectedError
    | UploadFailed
    | PhotoUploaded(fileName: string, category: string)
    | NoNotification
    | RecordWriteFailed

  datatype UploadRun = UploadRun(form: UploadForm, outcome: UploadOutcome,
                                 storagePath: Option<string>, written: Option<UploadRecord>)

  /** `handleSubmit` as written, up to the end of its completion callback.
      `reported` is the percentage last shown by the progress callback. */
  function HandleUploadSubmit(s: UploadForm, now: nat, result: TransferResult, reported: int): (r: UploadRun)
    ensures r.outcome.MissingInformation? <==> s.file.None? || s.category == ""
    ensures r.outcome.MissingInformation? ==> r.form == s && r.storagePath.None? && r.written.None?
    ensures !r.outcome.MissingInformation? ==> r.storagePath == Some(StoragePath(now, s.file.value.name))
    ensures r.written.Some? <==> !r.outcome.MissingInformation? && result.Transferred? && result.added
    ensures r.written.Some? ==>
              && r.written.value.src == result.downloadUrl
              && r.written.value.name == s.file.value.name
              && r.written.value.category == s.category
    ensures r.outcome.PhotoUploaded? <==> r.written.Some?
    ensures r.outcome.PhotoUploaded? ==>
              r.form == UploadForm(None, None, s.category, false, 0)
              && r.outcome == PhotoUploaded(s.file.value.name, s.category)
    ensures r.outcome.UploadFailed? <==> !r.outcome.MissingInformation? && result.TransferFailed?
    ensures r.outcome.UploadFailed? || r.outcome.UnexpectedError? ==>
              && r.form.file == s.file && r.form.preview == s.preview && r.form.category == s.category
              && !r.form.uploading
    ensures r.outcome.UnexpectedError? <==> !r.outcome.MissingInformation? && result.StartThrew?
    ensures !r.outcome.MissingInformation? && result.StartThrew? ==> r.form.progress == 0
    ensures !r.outcome.MissingInformation? && !result.StartThrew? && !r.outcome.PhotoUploaded? ==>
              r.form.progress == reported
    ensures !r.outcome.MissingInformation? && (result.UrlFailed? || (result.Transferred? && !result.added)) ==>
              && r.outcome == NoNotification && r.form.uploading
              && r.form.file == s.file && r.form.preview == s.preview && r.form.category == s.category
  {
    if s.file.None? || s.category == "" then UploadRun(s, MissingInformation, None, None)
    else
      var f := s.file.value;
      var path := StoragePath(now, f.name);
      var started := s.(uploading := true, progress := 0);
      match result
      case StartThrew => UploadRun(started.(uploading := false), UnexpectedError, Some(path), None)
      case TransferFailed =>
        UploadRun(started.(uploading := false, progress := reported), UploadFailed, Some(path), None)
      case UrlFailed => UploadRun(started.(progress := reported), NoNotification, Some(path), None)
      case Transferred(url, added) =>
        if added then
          UploadRun(UploadForm(None, None, s.category, false, 0), PhotoUploaded(f.name, s.category),
                    Some(path), Some(UploadRecord(url, f.name, s.category, ServerTimestamp)))
        else UploadRun(started.(progress := reported), NoNotification, Some(path), None)
  }

  /** As written, a download URL or database write that fails after a
      completed upload leaves the form uploading, and so disabled, with no
      notification, whatever form was submitted. */
  lemma StuckAfterFailedWrite(s: UploadForm, now: nat, url: string, reported: int)
    requires s.file.Some? && s.category != ""
    ensures var r := HandleUploadSubmit(s, now, Transferred(url, false), reported);
            && r.form.uploading && r.outcome == NoNotification && r.written.None?
            && r.form.file == s.file && r.form.preview == s.preview && r.form.category == s.category
    ensures var r := HandleUploadSubmit(s, now, UrlFailed, reported);
            && r.form.uploading && r.outcome == NoNotification && r.written.None?
            && r.form.file == s.file && r.form.preview == s.preview && r.form.category == s.category
  {
  }

  /** `HandleUploadSubmit` with the two unhandled rejections reported as a
      failed record write and the uploading flag cleared. */
  function HandleUploadSubmitCorrected(s: UploadForm, now: nat, result: TransferResult, reported: int): (r: UploadRun)
    ensures !r.outcome.MissingInformation? ==> !r.form.uploading
    ensures r.outcome != NoNotification
    ensures r.outcome.RecordWriteFailed? <==>
              s.file.Some? && s.category != "" && (result.UrlFailed? || (result.Transferred? && !result.added))
    ensures r.outcome.RecordWriteFailed? ==>
              r.form.file == s.file && r.form.preview == s.preview && r.form.category == s.category
    ensures r.written == HandleUploadSubmit(s, now, result, reported).written
    ensures r.storagePath == HandleUploadSubmit(s, now, result, reported).storagePath
  {
    var r := HandleUploadSubmit(s, now, result, reported);
    if r.outcome.NoNotification? then r.(form := r.form.(uploading := false), outcome := RecordWriteFailed)
    else r
  }
}

=== FILE: session.dfy ===
/** The signed-in session as the admin views see it, and the hard-coded admin
    identity both of them compare against. */
module Session {
  import opened Wrappers

  /** A signed-in account; providers may leave the email unset. */
  datatype User = User(email: Option<string>)

  /** The auth provider's state: still resolving, and the current user if any. */
  datatype AuthState = AuthState(loading: bool, user: Option<User>)

  /** The one email address allowed into the admin area. */
  const AdminEmail: string := "amritkumarchanchal@gmail.com"

  /** `user?.email === ADMIN_EMAIL`. */
  predicate IsAdmin(user: Option<User>) {
    user.Some? && user.value.email == Some(AdminEmail)
  }

  /** The redirect effect's guard, `!loading && !user`. */
  predicate ShouldRedirect(auth: AuthState) {
    !auth.loading && auth.user.None?
  }
}

=== FILE: sitemap.dfy ===
/** The sitemap: three static routes, then one route per photo document. */
module Sitemap {
  import opened Wrappers

  const ProductionUrl: string := "https://amritbitla.netlify.app"

  const StaticRoutes: seq<string> := ["", "/admin", "/contact"]

  const PhotoRoutePrefix: string := "/amrit-kumar-chanchal/photo/"

  datatype ChangeFrequency = Daily | Weekly

  /** One sitemap entry; the priority is in tenths (1.0 is 10) and the
      last-modified instant is in milliseconds (its ISO rendering is left out). */
  datatype SitemapEntry = SitemapEntry(url: string, lastModified: int,
                                       changeFrequency: ChangeFrequency, priorityTenths: nat)

  /** What the sitemap reads of a photo document. */
  datatype PhotoDoc = PhotoDoc(id: string, createdAt: Option<int>)

  /** The home route is refreshed daily at top priority, the others weekly. */
  function StaticEntry(route: string, now: int): (e: SitemapEntry)
    ensures e.url == ProductionUrl + route && e.lastModified == now
    ensures e.changeFrequency == Daily <==> route == ""
    ensures e.priorityTenths == (if route == "" then 10 else 8)
  {
    if route == "" then SitemapEntry(ProductionUrl + route, now, Daily, 10)
    else SitemapEntry(ProductionUrl + route, now, Weekly, 8)
  }

  /** A photo's page, weekly at priority 0.7, last modified at its creation
      time or, lacking one, now. */
  function PhotoEntry(doc: PhotoDoc, now: int): (e: SitemapEntry)
    ensures e.url == ProductionUrl + PhotoRoutePrefix + doc.id
    ensures e.lastModified == doc.createdAt.GetOr(now)
    ensures e.changeFrequency == Weekly && e.priorityTenths == 7
  {
    SitemapEntry(ProductionUrl + PhotoRoutePrefix + doc.id, doc.createdAt.GetOr(now), Weekly, 7)
  }

  function PhotoEntries(docs: seq<PhotoDoc>, now: int): (r: seq<SitemapEntry>)
    ensures |r| == |docs|
    ensures forall i :: 0 <= i < |docs| ==> r[i] == PhotoEntry(docs[i], now)
  {
    if |docs| == 0 then [] else [PhotoEntry(docs[0], now)] + PhotoEntries(docs[1..], now)
  }

  /** `sitemap()`: `fetched` is the query's documents in query order, or
      `None` when the fetch failed (the error is logged and swallowed). */
  function BuildSitemap(now: int, fetched: Option<seq<PhotoDoc>>): (r: seq<SitemapEntry>)
    ensures fetched.None? ==> |r| == 3
    ensures fetched.Some? ==> |r| == 3 + |fetched.value|
    ensures forall i :: 0 <= i < 3 ==> r[i] == StaticEntry(StaticRoutes[i], now)
    ensures fetched.Some? ==> forall i :: 0 <= i < |fetched.value| ==> r[3 + i] == PhotoEntry(fetched.value[i], now)
  {
    var statics := [StaticEntry(StaticRoutes[0], now), StaticEntry(StaticRoutes[1], now),
                    StaticEntry(StaticRoutes[2], now)];
    match fetched
    case None => statics
    case Some(docs) => statics + PhotoEntries(docs, now)
  }

  /** Only the home route is daily, and only it has top priority. */
  lemma StaticEntriesShape(now: int)
    ensures BuildSitemap(now, None)[0] == SitemapEntry(ProductionUrl, now, Daily, 10)
    ensures BuildSitemap(now, None)[1] == SitemapEntry(ProductionUrl + "/admin", now, Weekly, 8)
    ensures BuildSitemap(now, None)[2] == SitemapEntry(ProductionUrl + "/contact", now, Weekly, 8)
  {
    assert ProductionUrl + "" == ProductionUrl;
  }

  /** The document id can be read back off a photo entry's URL. */
  lemma PhotoUrlNamesDocument(doc: PhotoDoc, now: int)
    ensures var u := PhotoEntry(doc, now).url;
            var n := |ProductionUrl + PhotoRoutePrefix|;
            |u| >= n && u[..n] == ProductionUrl + PhotoRoutePrefix && u[n..] == doc.id
  {
  }

  /** Two photo entries share a URL exactly when their documents share an id. */
  lemma PhotoUrlsEqualIff(a: PhotoDoc, b: PhotoDoc, now: int)
    ensures PhotoEntry(a, now).url == PhotoEntry(b, now).url <==> a.id == b.id
  {
    PhotoUrlNamesDocument(a, now);
    PhotoUrlNamesDocument(b, now);
  }

  /** No static route's URL is a photo page's URL. */
  lemma StaticUrlIsNoPhotoUrl(k: nat, doc: PhotoDoc, now: int)
    requires k < 3
    ensures StaticEntry(StaticRoutes[k], now).url != PhotoEntry(doc, now).url
  {
    var u := PhotoEntry(doc, now).url;
    var n := |ProductionUrl|;
    assert u[n + 2] == PhotoRoutePrefix[2] == 'm';
    if k == 0 {
      assert |ProductionUrl + StaticRoutes[k]| < |u|;
    } else {
      assert (ProductionUrl + StaticRoutes[k])[n + 2] == StaticRoutes[k][2];
    }
  }

  /** A repeated URL in the sitemap comes from two documents with one id. */
  lemma RepeatedUrlMeansRepeatedId(now: int, docs: seq<PhotoDoc>, i: nat, j: nat)
    requires i < j < |BuildSitemap(now, Some(docs))|
    requires BuildSitemap(now, Some(docs))[i].url == BuildSitemap(now, Some(docs))[j].url
    ensures 3 <= i && docs[i - 3].id == docs[j - 3].id
  {
    if i >= 3 {
      PhotoUrlsEqualIff(docs[i - 3], docs[j - 3], now);
    }
  }

  predicate UrlsDistinct(r: seq<SitemapEntry>) {
    forall i, j :: 0 <= i < j < |r| ==> r[i].url != r[j].url
  }

  predicate IdsDistinct(docs: seq<PhotoDoc>) {
    forall i, j :: 0 <= i < j < |docs| ==> docs[i].id != docs[j].id
  }

  /** Sitemap URLs are pairwise distinct exactly when the documents' ids are. */
  lemma UrlsDistinctIffIdsDistinct(now: int, docs: seq<PhotoDoc>)
    ensures UrlsDistinct(BuildSitemap(now, Some(docs))) <==> IdsDistinct(docs)
  {
    if IdsDistinct(docs) {
      DistinctIdsGiveDistinctUrls(now, docs);
    }
    if UrlsDistinct(BuildSitemap(now, Some(docs))) {
      DistinctUrlsGiveDistinctIds(now, docs);
    }
  }

  lemma DistinctIdsGiveDistinctUrls(now: int, docs: seq<PhotoDoc>)
    requires IdsDistinct(docs)
    ensures UrlsDistinct(BuildSitemap(now, Some(docs)))
  {
    var r := BuildSitemap(now, Some(docs));
    forall i: nat, j: nat | i < j < |r| ensures r[i].url != r[j].url {
      if r[i].url == r[j].url {
        RepeatedUrlMeansRepeatedId(now, docs, i, j);
      }
    }
  }

  lemma DistinctUrlsGiveDistinctIds(now: int, docs: seq<PhotoDoc>)
    requires UrlsDistinct(BuildSitemap(now, Some(docs)))
    ensures IdsDistinct(docs)
  {
    var r := BuildSitemap(now, Some(docs));
    forall i, j | 0 <= i < j < |docs| ensures docs[i].id != docs[j].id {
      PhotoUrlsEqualIff(docs[i], docs[j], now);
      assert r[3 + i] == PhotoEntry(docs[i], now);
      assert r[3 + j] == PhotoEntry(docs[j], now);
    }
  }
}

=== FILE: strings.dfy ===
/** The pieces of JavaScript's string library the application relies on:
    `trim`, `split` on one character, `join`, `includes`, and the decimal
    rendering of a non-negative integer inside a template literal. */
module Strings {

  /** ECMAScript WhiteSpace and LineTerminator code points: exactly what
      `String.prototype.trim` removes (space separators as of Unicode 15). */
  predicate IsJsWhitespace(c: char) {
    || c == '\t' || c == '\n' || c == '\U{000B}' || c == '\U{000C}' || c == '\r'
    || c == ' ' || c == '\U{00A0}' || c == '\U{1680}'
    || ('\U{2000}' <= c <= '\U{200A}')
    || c == '\U{2028}' || c == '\U{2029}' || c == '\U{202F}' || c == '\U{205F}'
    || c == '\U{3000}' || c == '\U{FEFF}'
  }

  predicate AllWhitespace(s: string) {
    forall i :: 0 <= i < |s| ==> IsJsWhitespace(s[i])
  }

  /** A string with nothing for `trim` to remove. */
  predicate IsTrimmed(s: string) {
    |s| == 0 || (!IsJsWhitespace(s[0]) && !IsJsWhitespace(s[|s| - 1]))
  }

  /** Drops leading whitespace: the result is a suffix of `s` preceded only by whitespace. */
  function TrimStart(s: string): (r: string)
    ensures |r| <= |s| && r == s[|s| - |r|..]
    ensures AllWhitespace(s[..|s| - |r|])
    ensures |r| == 0 || !IsJsWhitespace(r[0])
  {
    if |s| > 0 && IsJsWhitespace(s[0]) then TrimStart(s[1..]) else s
  }

  /** Drops trailing whitespace: the result is a prefix of `s` followed only by whitespace. */
  function TrimEnd(s: string): (r: string)
    ensures |r| <= |s| && r == s[..|r|]
    ensures AllWhitespace(s[|r|..])
    ensures |r| == 0 || !IsJsWhitespace(r[|r| - 1])
  {
    if |s| > 0 && IsJsWhitespace(s[|s| - 1]) then TrimEnd(s[..|s| - 1]) else s
  }

  /** JavaScript's `s.trim()`. */
  function Trim(s: string): (r: string)
    ensures IsTrimmed(r)
    ensures IsTrimmed(s) ==> r == s
    ensures |r| == 0 <==> AllWhitespace(s)
    ensures exists i: nat :: StripsTo(s, r, i)
    ensures forall c :: c in r ==> c in s
  {
    TrimStrips(s);
    TrimEnd(TrimStart(s))
  }

  lemma TrimStrips(s: string)
    ensures StripsTo(s, TrimEnd(TrimStart(s)), |s| - |TrimStart(s)|)
  {
    var a := TrimStart(s);
    var r := TrimEnd(a);
    var i := |s| - |a|;
    assert s[i..][..|r|] == r;
    assert s[i + |r|..] == a[|r|..];
  }

  /** `r` is `s` with the whitespace before index `i` and after `r` removed. */
  predicate StripsTo(s: string, r: string, i: nat) {
    OccursAt(s, r, i) && AllWhitespace(s[..i]) && AllWhitespace(s[i + |r|..])
  }

  /** Whitespace in front of a trimmed, non-empty string is what `trim` removes. */
  lemma {:induction false} TrimAfterWhitespace(w: string, t: string)
    requires AllWhitespace(w) && IsTrimmed(t) && |t| > 0
    ensures Trim(w + t) == t
  {
    TrimStartAfterWhitespace(w, t);
  }

  lemma {:induction false} TrimStartAfterWhitespace(w: string, t: string)
    requires AllWhitespace(w) && |t| > 0 && !IsJsWhitespace(t[0])
    ensures TrimStart(w + t) == t
    decreases |w|
  {
    if |w| == 0 {
      assert w + t == t;
    } else {
      assert (w + t)[1..] == w[1..] + t;
      TrimStartAfterWhitespace(w[1..], t);
    }
  }

  lemma {:induction false} TrimEndBeforeWhitespace(t: string, w: string)
    requires AllWhitespace(w) && |t| > 0 && !IsJsWhitespace(t[|t| - 1])
    ensures TrimEnd(t + w) == t
    decreases |w|
  {
    if |w| == 0 {
      assert t + w == t;
    } else {
      assert (t + w)[..|t + w| - 1] == t + w[..|w| - 1];
      TrimEndBeforeWhitespace(t, w[..|w| - 1]);
    }
  }

  /** Whitespace after a trimmed, non-empty string is what `trim` removes. */
  lemma TrimBeforeWhitespace(t: string, w: string)
    requires AllWhitespace(w) && IsTrimmed(t) && |t| > 0
    ensures Trim(t + w) == t
  {
    TrimEndBeforeWhitespace(t, w);
  }

  /** JavaScript's `s.split(sep)` for a one-character separator. */
  function Split(s: string, sep: char): (r: seq<string>)
    ensures |r| >= 1
    ensures forall i :: 0 <= i < |r| ==> sep !in r[i]
    ensures sep !in s ==> r == [s]
    decreases |s|
  {
    if |s| == 0 then [""]
    else
      var rest := Split(s[1..], sep);
      if s[0] == sep then [""] + rest
      else
        assert sep !in s ==> sep !in s[1..] && [s[0]] + s[1..] == s;
        [[s[0]] + rest[0]] + rest[1..]
  }

  /** JavaScript's `parts.join(delim)`. */
  function Join(parts: seq<string>, delim: string): (r: string)
    ensures |parts| == 0 ==> r == ""
    ensures |parts| > 0 ==> |r| >= |parts[0]| && r[..|parts[0]|] == parts[0]
    ensures |parts| > 0 ==> |r| >= |parts[|parts| - 1]| && r[|r| - |parts[|parts| - 1]|..] == parts[|parts| - 1]
  {
    if |parts| == 0 then ""
    else if |parts| == 1 then parts[0]
    else parts[0] + delim + Join(parts[1..], delim)
  }

  /** A piece free of the separator, then the separator, starts a new piece. */
  lemma {:induction false} SplitAfterPiece(a: string, sep: char, b: string)
    requires sep !in a
    ensures Split(a + [sep] + b, sep) == [a] + Split(b, sep)
    decreases |a|
  {
    if |a| == 0 {
      assert a + [sep] + b == [sep] + b;
      assert ([sep] + b)[1..] == b;
    } else {
      assert (a + [sep] + b)[1..] == a[1..] + [sep] + b;
      SplitAfterPiece(a[1..], sep, b);
      assert [a[0]] + a[1..] == a;
    }
  }

  /** A separator ends the last piece of `a`: the pieces of `a + [sep] + b`
      are those of `a` followed by those of `b`. */
  lemma {:induction false} SplitAround(a: string, sep: char, b: string)
    ensures Split(a + [sep] + b, sep) == Split(a, sep) + Split(b, sep)
    decreases |a|
  {
    if |a| == 0 {
      assert a + [sep] + b == [sep] + b;
      assert ([sep] + b)[1..] == b;
    } else {
      assert (a + [sep] + b)[1..] == a[1..] + [sep] + b;
      SplitAround(a[1..], sep, b);
    }
  }

  /** Splitting undoes joining, when no piece contains the separator. */
  lemma {:induction false} SplitJoin(parts: seq<string>, sep: char)
    requires |parts| >= 1
    requires forall i :: 0 <= i < |parts| ==> sep !in parts[i]
    ensures Split(Join(parts, [sep]), sep) == parts
  {
    if |parts| > 1 {
      SplitJoin(parts[1..], sep);
      SplitAfterPiece(parts[0], sep, Join(parts[1..], [sep]));
      assert [parts[0]] + parts[1..] == parts;
    }
  }

  /** Joining undoes splitting. */
  lemma {:induction false} JoinSplit(s: string, sep: char)
    ensures Join(Split(s, sep), [sep]) == s
    decreases |s|
  {
    if |s| > 0 {
      var rest := Split(s[1..], sep);
      assert [s[0]] + s[1..] == s;
      JoinSplit(s[1..], sep);
      if s[0] == sep {
        JoinCons("", rest, [sep]);
      } else {
        JoinPrepend(s[0], rest, [sep]);
      }
    }
  }

  /** A character in front of the first part is a character in front of the join. */
  lemma JoinPrepend(c: char, parts: seq<string>, delim: string)
    requires |parts| >= 1
    ensures Join([[c] + parts[0]] + parts[1..], delim) == [c] + Join(parts, delim)
  {
    var p0, tail := parts[0], parts[1..];
    assert parts == [p0] + tail;
    if |tail| == 0 {
      JoinCons([c] + p0, tail, delim);
      JoinCons(p0, tail, delim);
    } else {
      var j := Join(tail, delim);
      assert Join([[c] + p0] + tail, delim) == [c] + p0 + delim + j by { JoinCons([c] + p0, tail, delim); }
      assert Join(parts, delim) == p0 + delim + j by { JoinCons(p0, tail, delim); }
      assert [c] + p0 + delim + j == [c] + (p0 + delim + j);
    }
  }

  /** Joining a list with a first part in front. */
  lemma JoinCons(p: string, rest: seq<string>, delim: string)
    ensures Join([p] + rest, delim) == if |rest| == 0 then p else p + delim + Join(rest, delim)
  {
    assert ([p] + rest)[1..] == rest;
  }

  predicate OccursAt(s: string, sub: string, i: nat) {
    i + |sub| <= |s| && s[i..i + |sub|] == sub
  }

  /** JavaScript's `s.includes(sub)`. */
  function Includes(s: string, sub: string): (b: bool)
    ensures b <==> exists i: nat :: OccursAt(s, sub, i)
    decreases |s|
  {
    if |sub| <= |s| && s[..|sub|] == sub then
      assert OccursAt(s, sub, 0);
      true
    else if |s| == 0 then
      assert forall i: nat :: !OccursAt(s, sub, i);
      false
    else
      var b := Includes(s[1..], sub);
      assert forall i: nat :: OccursAt(s[1..], sub, i) <==> OccursAt(s, sub, i + 1);
      assert !OccursAt(s, sub, 0);
      assert forall i: nat :: i > 0 ==> (OccursAt(s, sub, i) <==> OccursAt(s[1..], sub, i - 1));
      b
  }

  predicate IsDigit(c: char) {
    '0' <= c <= '9'
  }

  function DigitChar(d: nat): (c: char)
    requires d < 10
    ensures IsDigit(c)
  {
    ['0', '1', '2', '3', '4', '5', '6', '7', '8', '9'][d]
  }

  function DigitValue(c: char): nat
    requires IsDigit(c)
  {
    (c as int) - ('0' as int)
  }

  /** The decimal text of `n`, as a template literal renders a non-negative integer. */
  function NatToString(n: nat): (r: string)
    ensures |r| >= 1
    ensures forall i :: 0 <= i < |r| ==> IsDigit(r[i])
    ensures |r| > 1 ==> r[0] != '0'
  {
    if n < 10 then [DigitChar(n)] else NatToString(n / 10) + [DigitChar(n % 10)]
  }

  /** The value of a string of decimal digits. */
  function DigitsValue(s: string): nat
    requires forall i :: 0 <= i < |s| ==> IsDigit(s[i])
  {
    if |s| == 0 then 0 else 10 * DigitsValue(s[..|s| - 1]) + DigitValue(s[|s| - 1])
  }

  /** Reading the decimal text back gives the number. */
  lemma {:induction false} NatToStringRoundTrip(n: nat)
    ensures DigitsValue(NatToString(n)) == n
  {
    if n >= 10 {
      var r := NatToString(n);
      NatToStringRoundTrip(n / 10);
      assert r[..|r| - 1] == NatToString(n / 10);
    }
  }

  /** A decimal numeral as `NatToString` writes it: digits only, at least
      one, and no leading zero. */
  predicate IsCanonicalDecimal(s: string) {
    && |s| >= 1
    && (forall i :: 0 <= i < |s| ==> IsDigit(s[i]))
    && (|s| > 1 ==> s[0] != '0')
  }

  /** Every canonical numeral is the rendering of its own value, so
      `NatToString` is the only canonical rendering of a number. */
  lemma {:induction false} CanonicalDecimalUnique(s: string)
    requires IsCanonicalDecimal(s)
    ensures NatToString(DigitsValue(s)) == s
    decreases |s|
  {
    var n := DigitsValue(s);
    var c := s[|s| - 1];
    DigitCharOfValue(c);
    if |s| == 1 {
      assert s[..|s| - 1] == [];
      assert DigitsValue(s[..|s| - 1]) == 0;
      assert n == DigitValue(c);
    } else {
      var p := s[..|s| - 1];
      assert p[0] == s[0];
      CanonicalDecimalUnique(p);
      assert n == 10 * DigitsValue(p) + DigitValue(c);
      assert n / 10 == DigitsValue(p) && n % 10 == DigitValue(c);
      assert s == p + [c];
    }
  }

  lemma DigitCharOfValue(c: char)
    requires IsDigit(c)
    ensures DigitValue(c) < 10 && DigitChar(DigitValue(c)) == c
  {
  }

}

=== FILE: types.dfy ===
/** The photo record and the category taxonomy shared by every view. */
module Types {
  import opened Wrappers
  import opened Dates

  /** A photo document. `id`, `src` (the storage download URL), `name` and
      `category` are always present; `category` is any string, the taxonomy
      being a client-side convention only. The other fields are optional:
      `description` and `createdAt` are declared on the record, the rest are
      written by the edit form. Absent and `null` are both `None`. Instants
      are milliseconds since the epoch; `postingDate` keeps whatever shape was
      stored, because the edit form reads it defensively. */
  datatype Photo = Photo(
    id: string,
    src: string,
    name: string,
    category: string,
    description: Option<string>,
    createdAt: Option<int>,
    altText: Option<string>,
    caption: Option<string>,
    location: Option<string>,
    tags: Option<seq<string>>,
    postingDate: DateValue,
    updatedAt: Option<int>)

  /** Firestore's `serverTimestamp()` placeholder: the server fills in the
      time of the write. */
  datatype ServerValue = ServerTimestamp

  /** The fixed taxonomy, in display order. */
  const AppCategories: seq<string> :=
    ["Birthday", "Holiday", "Work", "School", "Friends", "College Friends"]

  /** A taxonomy member. */
  type Category = c: string | c in AppCategories witness "Birthday"

  /** The filter sentinel meaning "no category filter". */
  const AllCategoriesOption: string := "All Categories"

  /** What a category filter can have selected: the sentinel or a category. */
  type Selection = s: string | s == AllCategoriesOption || s in AppCategories
    witness AllCategoriesOption

  lemma TaxonomyShape()
    ensures |AppCategories| == 6
    ensures AppCategories[0] == "Birthday" && AppCategories[5] == "College Friends"
    ensures forall i, j :: 0 <= i < j < |AppCategories| ==> AppCategories[i] != AppCategories[j]
  {
  }

  /** The sentinel is not a category, so no `Category` value equals it. */
  lemma SentinelIsNotACategory(c: Category)
    ensures AllCategoriesOption !in AppCategories
    ensures c != AllCategoriesOption
  {
  }
}

=== FILE: wrappers.dfy ===
/** A value that may be absent: the model of JavaScript's `undefined` and
    Firestore's `null` wherever the application reads them the same way. */
module Wrappers {

  datatype Option<+T> = None | Some(value: T) {

    /** The wrapped value, or `default` when absent (JavaScript's `x || default`
        for values that are never falsy when present). */
    function GetOr(default: T): T {
      match this
      case Some(v) => v
      case None => default
    }
  }
}
